=== FILE: README.md ===
# Jii comet client, path helpers and message source, in Dafny

This project models three parts of the Jii JavaScript framework and proves
properties of them.

- **The comet client** (`Jii.comet.client.Client`). It keeps a list of
  subscribed channels and a table of requests waiting for their response. It
  speaks a one-line text protocol with the server:
  `subscribe <channel>`, `unsubscribe <channel>`, `channel <channel> <payload>`,
  `action <route> <json>` outbound and `action <json>` inbound. It turns
  transport events into its own `open`, `close`, `channel`, `channel:<name>`,
  `message` and `request` events. As a side effect of `on`, the first
  `channel` handler subscribes the sentinel channel `__allVfcOS7`, and every
  `channel:<name>` handler subscribes channel `<name>`.
- **The path helpers** (`Jii.helpers.File`): `getFileDirectory`,
  `getFileName`, `getFileExtension`, `isFile` and `normalizePath`. The first
  four are single regular-expression calls. Each pattern is stated as a ghost
  "matches at position i" predicate with JavaScript's semantics: leftmost
  match, `$` as end of input, `.` not matching line terminators. The function
  that computes the result is proved to agree with it.
- **The message source** (`Jii.i18n.MessageSource`): `translate` and its
  two-level cache keyed by `language/category` and then by message. The cache
  is filled lazily by `_loadMessages`. A `missingTranslation` event may supply
  a fallback, and a message nothing could translate is stored as `false`.

The state is an immutable record and every operation is a pure function of it.

- **Client calls and events.** The transport is the log of calls the client
  made on it. The events the client triggers are a log of name and data. The
  log leaves out `beforeSend` and `beforeRequest` (see Left out). A request's promise
  is its `requestUid`; resolving it appends to a `resolved` log.
- **JSON engine.** `JSON.stringify`, `JSON.parse` and property-key coercion
  are an abstract `Runtime`. `Lawful` states the laws the proofs rely on.
- **Loader and handlers.** The message loader and the `missingTranslation`
  handlers are parameters (`Hooks`).

Modules:

| module | what it holds |
|---|---|
| `Wrappers` | `Option`, `Result` |
| `Strings` | `_indexOf`, `splice`, `split`/`join` on sequences |
| `Json` | JSON values, truthiness, the abstract engine |
| `Wire` | the frames of the protocol and the cut `SplitChannelBody` |
| `CometClient` | the client state and one function per method and transport event |
| `CometProperties` | lemmas about runs of the client |
| `FileHelper` | the path helpers, as written and as documented |
| `MessageSource` | the translation cache |

`normalizePath` does not do what its doc comment says (see Findings). The
model follows the code. The documented behaviour is a separate, corrected
function, `NormalizePathIntended`. The project proves its promised shape
about it. The code's own behaviour is not claimed idempotent: `NotIdempotent`
exhibits an input on which it is not.

## Model

| member | source | states |
|---|---|---|
| Strings.IndexOf | comet/client/Client.js:291 | `_indexOf` finds the first occurrence. The result is `|s|` (the source's -1) exactly when the element is absent. |
| Strings.RemoveAt | comet/client/Client.js:304 | `splice(index, 1)` removes exactly the element at the index and keeps the rest in order. |
| Strings.Split | helpers/File.js:78 | `split(ds)` gives at least one piece, and no piece holds the separator. |
| Strings.JoinSplit | helpers/File.js:78 | Joining the pieces of a split with the same separator gives the string back. |
| Strings.SplitJoin | helpers/File.js:89 | Splitting a join of separator-free pieces gives the pieces back. |
| Strings.ContainsPair | helpers/File.js:72 | `indexOf` of a two-character needle finds something exactly when that adjacent pair occurs. |
| Strings.SplitTailNonEmpty | helpers/File.js:72 | Every piece of a split after the first is non-empty exactly when there is no doubled separator and no trailing one. |
| Wire.SplitChannelBody | comet/client/Client.js:417-423 | The channel is the text before the first space and the payload everything after it. With no space the channel is empty and the payload is the whole body. |
| Wire.ChannelFrameRoundTrip | comet/client/Client.js:327-328 | The frame `send` builds starts with `channel `. The cut `_onMessage` makes in the rest (lines 416-423) gives back its channel and payload exactly when the channel name has no space. |
| Wire.PrefixesExclusive | comet/client/Client.js:401-416 | No inbound frame takes both the action branch and the channel branch. |
| Wire.CommandsDistinct | comet/client/Client.js:356 | A channel frame is never read as an action frame, nor an action frame as a channel frame. |
| CometClient.Init | comet/client/Client.js:146-165 | A fresh client is closed. It has no subscriptions, pending requests or handlers. It asks the transport to open exactly when `autoOpen` is set. |
| CometClient.Open | comet/client/Client.js:234-239 | `open()` clears the force-closed flag. It asks the transport to open only while closed. It does not change the connection state. |
| CometClient.Close | comet/client/Client.js:244-249 | `close()` sets the force-closed flag. It asks the transport to close only while open. It does not change the connection state. |
| CometClient.SendInternal | comet/client/Client.js:366-377 | A frame reaches the transport exactly when the client is open. Otherwise the frame is dropped and the modelled state is unchanged. |
| CometClient.Subscribe | comet/client/Client.js:290-295 | A tracked channel changes nothing. An untracked one is appended and its subscribe frame sent. The list stays free of duplicates. |
| CometClient.Unsubscribe | comet/client/Client.js:300-306 | An untracked channel changes nothing. A tracked one loses exactly one occurrence and its unsubscribe frame is sent. |
| CometClient.Send | comet/client/Client.js:322-328 | While open, exactly one channel frame is sent, carrying a string as it is or any other value stringified. Nothing else changes. |
| CometClient.RequestParams | comet/client/Client.js:336-337 | Falsy data becomes `{requestUid}`. An object gains `requestUid` and keeps its other fields. An array is unchanged as JSON. |
| CometClient.Request | comet/client/Client.js:335-359 | The route is stored under the uid and the action frame is sent. Truthy primitive data throws a TypeError. |
| CometClient.Replay | comet/client/Client.js:384-386 | Re-subscribing a list of channels only touches the subscription list and the transport log. The log only grows. |
| CometClient.ReplayAppends | comet/client/Client.js:384-386 | Replaying distinct, untracked channels appends them all, in order. |
| CometClient.ReplaySends | comet/client/Client.js:384-386 | While open, replaying distinct channels sends one subscribe frame each, in order. |
| CometClient.OnOpen | comet/client/Client.js:379-391 | Only a real transition acts. It marks the client open and re-subscribes the tracked channels in order when auto-resubscribe is on. Then it fires `open`. |
| CometClient.OnClose | comet/client/Client.js:393-398 | Only a real transition acts: it marks the client closed and fires `close`. |
| CometClient.On | comet/client/Client.js:258-268 | One more handler on the name. The first `channel` handler subscribes the sentinel channel. Every `channel:<n>` handler subscribes `n`. Each of these sends its subscribe frame while open, unless the channel is already tracked. Other names touch no subscription and send nothing. |
| CometClient.Off | comet/client/Client.js:275-285 | Handlers are removed first. The sentinel channel is dropped when no `channel` handler is left. `channel:<n>` unsubscribes `n` whatever handlers remain. Each drop of a tracked channel sends its unsubscribe frame while open. |
| CometClient.HandleAction | comet/client/Client.js:401-414 | Malformed JSON throws a SyntaxError and `null` throws a TypeError. A pending uid is resolved with the response, `request` fires with the stored route, and the entry is deleted. Anything else changes nothing. |
| CometClient.ChannelEventOf | comet/client/Client.js:416-426 | The payload is parsed exactly when it opens with `{` or `[`. The raw text is kept exactly when the parsed value is falsy. A malformed bracketed payload throws. |
| CometClient.OnMessage | comet/client/Client.js:400-437 | The action branch runs first, then `channel:<name>` and `channel`. `message` fires last for every frame. Subscriptions, transport and connection state never change. |
| CometClient.Step | comet/client/Client.js:335-437 | Only a request or an inbound message can throw. |
| CometClient.AfterGrows | comet/client/Client.js:234-437 | Every call or transport event only appends to the transport and event logs. |
| CometClient.Run | comet/client/Client.js:151-153 | Over a whole run the transport and event logs only grow. |
| CometProperties.OnOpenIdempotent | comet/client/Client.js:379-391 | A repeated transport `open` changes nothing. |
| CometProperties.OnCloseIdempotent | comet/client/Client.js:393-398 | A repeated transport `close` changes nothing. |
| CometProperties.CallsDoNotChangeConnectionState | comet/client/Client.js:234-249 | `open()`/`close()` leave the connection state to the transport. The last call decides the force-closed flag. |
| CometProperties.ReconnectReplaysSubscriptions | comet/client/Client.js:379-398 | After a drop and a reconnect the subscription list is the same and every channel is re-subscribed once, in order. `close` then `open` fire. |
| CometProperties.ClosedClientSendsNothing | comet/client/Client.js:374-376 | While closed no input except a transport `open` puts a frame on the wire. |
| CometProperties.SubscribeUnsubscribeRoundTrip | comet/client/Client.js:290-306 | Subscribing an untracked channel and then unsubscribing it restores the list. While open it sends exactly the two frames. |
| CometProperties.TrackedIffNetSubscribed | comet/client/Client.js:290-306 | For any run of subscribe/unsubscribe calls the list has no duplicates. A channel is tracked exactly when the last call about it was a subscribe. |
| CometProperties.OnWildcardKeepsConsistent | comet/client/Client.js:258-262 | Adding a `channel` handler keeps "sentinel subscribed iff some `channel` handler exists". |
| CometProperties.OffWildcardKeepsConsistent | comet/client/Client.js:275-281 | Removing `channel` handlers keeps the same invariant. |
| CometProperties.WildcardReferenceCounted | comet/client/Client.js:258-281 | With two `channel` handlers there is one subscribe frame. Removing one keeps the subscription; removing the other sends the unsubscribe. |
| CometProperties.PerChannelNotReferenceCounted | comet/client/Client.js:282-284 | With two `channel:<n>` handlers, removing one already unsubscribes `n`, and an open client sends the unsubscribe frame. |
| CometProperties.NameFamiliesDisjoint | comet/client/Client.js:260-263 | `channel` and `channel:<n>` never name the same event. |
| CometProperties.ChannelEventExactlyOnePayload | comet/client/Client.js:420-425 | With a lawful engine a channel event carries exactly one of `params` and `message`. |
| CometProperties.SendReceiveRoundTrip | comet/client/Client.js:322-431 | For a channel name without a space, and data that is not a string opening with `{` or `[`, what `send` puts on the wire, delivered back, fires `channel:<n>`, then `channel`, then `message`, all with the same channel. An object or array comes back as the parsed `params`. Any other value comes back as raw text in `message`: a string as itself, and a number, boolean or `null` as its JSON text, not as the value. The excluded cases differ in the source: a space cuts the channel at the first space, and a bracketed string is parsed, or throws when it is not valid JSON. |
| CometProperties.RequestCarriesUid | comet/client/Client.js:336-356 | The action frame's JSON parses back to the parameters, which carry the uid. |
| CometProperties.RequestResponseRoundTrip | comet/client/Client.js:335-414 | A response carrying the uid resolves the request once, fires `request` with its route and clears the pending entry. |
| CometProperties.UnknownResponseIgnored | comet/client/Client.js:403 | A response whose uid is not pending changes nothing but the `message` event. |
| CometProperties.ResolvedOnlyOnce | comet/client/Client.js:403-412 | Delivering the same response twice resolves the request only once. |
| CometProperties.ResolveKeepsUnique | comet/client/Client.js:412 | Resolving a uid not resolved before keeps the resolved uids distinct. |
| CometProperties.StepPreservesValid | comet/client/Client.js:290-437 | Given a fresh uid, every input keeps the invariant: no duplicate channel, each uid resolved at most once, no resolved uid pending. |
| CometProperties.RunPreservesValid | comet/client/Client.js:290-437 | Every run with fresh uids keeps that invariant. |
| FileHelper.DirMatches | helpers/File.js:39 | The last slash decides every match of `/\/?[^\/]+$/`. A trailing slash means none. Otherwise the leftmost match starts at the last slash, or at 0 without one. |
| FileHelper.DirectoryMatchesRegex | helpers/File.js:38-40 | Without a match the path is returned unchanged. Otherwise the text from the leftmost match on is removed. |
| FileHelper.LineStart | helpers/File.js:43 | The start of the last line: the text after it holds no line terminator. |
| FileHelper.NameGroupAfterLastSlash | helpers/File.js:43 | Any match of `/(.*\/)?([^\/]+)$/` puts the name group after the last slash, and right after it when the optional group is present. |
| FileHelper.FileNameMatchesRegex | helpers/File.js:42-44 | Without a match the path is returned unchanged. Otherwise the leftmost match is replaced by its second group. |
| FileHelper.LowerSuffixLength | helpers/File.js:47 | The longest all-lower-case suffix. |
| FileHelper.ExtensionMatchesRegex | helpers/File.js:46-49 | The result is the first group of any match of `/\.([a-z]+)$/`: the lower-case ASCII letters after a final dot. Without a match it is `""`. |
| FileHelper.IsFileMatchesRegex | helpers/File.js:51-53 | True exactly when `/[^\/]+\.[^\/]+$/` matches somewhere. |
| FileHelper.ReplaceSlashBackslash | helpers/File.js:71 | Without a `/\` pair nothing changes. For a separator other than `$`, the length is kept and only slashes and backslashes change, each into `ds`. |
| FileHelper.ReplaceSlashBackslashSplits | helpers/File.js:71 | For every separator, a `/\` pair becomes the replacement text and the text on either side is replaced on its own. The replacement is `ds ds`, except for `$`, where `$$` stands for one `$`, so the pair shrinks to one character. |
| FileHelper.DollarSeparatorExample | helpers/File.js:71 | With `$` as the separator, `a/\b` becomes `a$b`. |
| FileHelper.ReplaceSlashBackslashPairs | helpers/File.js:71 | For a separator other than `$`, each character of a `/\` pair becomes `ds` and every other character stays, a lone slash or backslash included. |
| FileHelper.TrimEnd | helpers/File.js:71 | `_trimEnd`, taken one character at a time, removes exactly the trailing run of the separator. |
| FileHelper.CollapseKeepsClean | helpers/File.js:77-87 | The loop as written leaves no `.` segment and no empty segment after the first, and keeps only given segments or `..`. |
| FileHelper.HiddenPieceGivesPair | helpers/File.js:72 | A piece starting with a dot makes `ds.` occur in `ds + path`. |
| FileHelper.PairGivesHiddenPiece | helpers/File.js:72 | With `ds` not a dot, `ds.` in `ds + path` means some piece starts with a dot. |
| FileHelper.DotAfterSeparator | helpers/File.js:72 | The fast-path test for `ds.` holds exactly when some piece starts with a dot. |
| FileHelper.FastPathNormalized | helpers/File.js:72-74 | What the fast path returns has no doubled separator, no trailing one and no `.` segment. |
| FileHelper.JoinNormalized | helpers/File.js:89-90 | Joining the collapsed segments gives a normalized path, or `.` when empty. |
| FileHelper.NormalizePath | helpers/File.js:68-91 | The result is `.` or has no doubled separator, no trailing separator and no `.` segment, for any separator. |
| FileHelper.PlainPathUnchanged | helpers/File.js:71-74 | The fast path: a path with no `/\` pair which, without its trailing separators, has no doubled separator and no piece starting with a dot comes back with only those trailing separators removed. |
| FileHelper.DocumentedTrailingExample | helpers/File.js:60-74 | `/a/b/c/` gives `/a/b/c`, as the comment says. |
| FileHelper.TranslateSeparators | helpers/File.js:59 | The documented conversion: every slash and backslash becomes the separator and nothing else changes. |
| FileHelper.CollapseIntendedKeepsShape | helpers/File.js:62 | The corrected loop keeps the list clean and keeps every `..` in front of the named segments. |
| FileHelper.ParentCancels | helpers/File.js:62 | In the corrected loop a `..` right after a named segment cancels it: the loop goes on from the list it had before both. |
| FileHelper.PlainSegmentsKept | helpers/File.js:61-62 | Without `.` and `..` pieces the corrected loop drops only the empty pieces and keeps all the others, in order. |
| FileHelper.PlainPathPieces | helpers/File.js:61-62 | From the start of a path, a leading empty piece is kept once and then only the non-empty pieces, so a run of separators becomes one. |
| FileHelper.SplitKeepsOnlySeparator | helpers/File.js:78 | Splitting keeps "no slash or backslash but the separator" in every piece. |
| FileHelper.JoinKeepsOnlySeparator | helpers/File.js:89 | Joining keeps "no slash or backslash but the separator". |
| FileHelper.NormalizePathIntended | helpers/File.js:56-62 | The documented behaviour: separators are converted, nothing trails, nothing doubles, no `.` segment, and only leading `..` remain. What happens to the segments is stated by ParentCancels, PlainSegmentsKept and PlainPathPieces. |
| FileHelper.FileNameIsLastPiece | helpers/File.js:42-44 | Without line breaks `getFileName` is the piece after the last slash. |
| FileHelper.JoinEndsWithLast | helpers/File.js:89 | A join ends with its last part, after a separator when there are several. |
| FileHelper.LastPiece | helpers/File.js:78 | The last piece of a split is what follows the last separator. |
| FileHelper.DirectoryAndName | helpers/File.js:38-44 | Without line breaks, a path not ending in a slash is its directory, a slash and its name. Without a slash the directory is empty and the name the whole path. |
| FileHelper.ExtensionExamples | helpers/File.js:46-49 | `archive.tar.gz` gives `gz`. `photo.JPG` and `README` give `""`. |
| FileHelper.FileNameLineBreak | helpers/File.js:42-44 | A line break before the last slash keeps the text before it: `a/b\nc/d` gives `a/b\nd`. |
| FileHelper.IsFileExamples | helpers/File.js:51-53 | `d/f.js` is a file and `d/.rc` is not. |
| FileHelper.NoBackslashNoPair | helpers/File.js:71 | A path without backslashes is untouched by the replace. |
| FileHelper.ParentNotResolved | helpers/File.js:78-87 | As written, `/a/./b/../c` gives `/a/../c`. |
| FileHelper.ParentAfterParentKept | helpers/File.js:79 | As written, `a/b/../..` gives `a/../..`. |
| FileHelper.NotIdempotent | helpers/File.js:68-91 | As written, a second pass over `a/b/../..` gives `../..`, which differs from the first pass. |
| FileHelper.BackslashesKept | helpers/File.js:71 | As written, `\a/b\c` comes back unchanged. |
| FileHelper.DocumentedParentExample | helpers/File.js:62 | Corrected, `/a/./b/../c` gives `/a/c`. |
| FileHelper.DocumentedSeparatorExample | helpers/File.js:59 | Corrected, `\a/b\c` gives `/a/b/c`. |
| MessageSource.BaseLoad | i18n/MessageSource.js:99-101 | The base loader provides no usable translation. |
| MessageSource.TranslateMessage | i18n/MessageSource.js:113-139 | Afterwards the key's table is stored and holds the returned value under the message; other keys and messages are untouched. The event fires exactly when a handler exists and the lookup missed. |
| MessageSource.Translate | i18n/MessageSource.js:73-79 | With the source language and no forcing, the result is `false` and nothing changes. Otherwise the lookup runs. |
| MessageSource.SetMessages | i18n/MessageSource.js:85-87 | The whole store is replaced and nothing else changes. |
| MessageSource.LoaderOnlyWhenAbsent | i18n/MessageSource.js:116-118 | The loader is consulted only when the key is absent. |
| MessageSource.HitLeavesStore | i18n/MessageSource.js:121-122 | A stored truthy translation is returned, the store is unchanged and no event fires. |
| MessageSource.FallbackStored | i18n/MessageSource.js:123-134 | A fallback from a handler is returned and stored, even an empty one. |
| MessageSource.NegativeCaching | i18n/MessageSource.js:137-138 | Without a fallback `false` is stored and returned. The event fires exactly when a handler is attached. |
| MessageSource.StoredFalsyStillMisses | i18n/MessageSource.js:121-123 | A stored `false` or `""` does not end the search: the handlers are asked again. |
| MessageSource.RepeatIsStable | i18n/MessageSource.js:113-139 | Asking twice in a row returns the same value and leaves the store as the first call left it. |
| MessageSource.PresetTableUsed | i18n/MessageSource.js:85-87 | A table given to `setMessages` is used as it is: no loading, and its truthy entry is the answer. |
| MessageSource.BaseLoaderMisses | i18n/MessageSource.js:99-101 | With the base loader and no handler, a new key stores a table holding only `false` for the message. |

## Left out

- `setServerUrl` and `getServerUrl`: balancer URL selection uses `Math.random`, the browser location and the user agent. The server URL is a given string.
- `init`'s `String.generateUid()` and the module-level `stationUid`: identifiers are parameters. A request's uid is the `uid` argument, and freshness is a premise of the uniqueness lemmas.
- Transport creation, plugins (`AutoReconnect`) and the transport object: the transport is a log of calls, and its events are inputs of `Step`.
- The `beforeSend` and `beforeRequest` events: their handlers may rewrite the frame or the parameters. The model takes handlers that leave them as they are. The events are also missing from the `triggered` log, although `_sendInternal` fires `beforeSend` for every frame, even while closed, and `request` fires `beforeRequest` for every request.
- Promises: resolving a request is an entry in the `resolved` log. The handlers of `then` are not modelled.
- The Component base class's `on`/`off`/`trigger`/`hasEventHandlers`: handlers are a count per event name. `Off` takes how many registrations the base class removed, which depends on handler identity.
- Handlers that call back into the client while an event is being triggered (re-entrancy).
- The getters `isOpened`, `isForceClosed`, `getStationUid` and `hasChannelHandlers`: they read fields of the state.
- `_subscribes`, `_requestsInProcess` and `_messages` are declared on the prototype and so shared between instances. The model gives each instance its own.
- Property names inherited from `Object.prototype` (such as `constructor`), and the `length` of the array the base loader returns: lookups in the pending table and in message tables see only own keys.
- JSON numbers are integers, and the engine (`stringify`, `parse`, key coercion) is abstract.
- A loader that returns `null`, or a store entry set to a falsy table through `setMessages`. In the source these throw or re-load; the model's tables are always present.
- MessageSource.RepeatIsStable: holds because `Hooks.fallback` is a function. Handlers that answer differently when the second call fires `missingTranslation` again are not modelled. After a miss the store holds `false` or `""`, both falsy, so the second call asks the handlers again.
- `MessageSource.init`'s default `sourceLanguage` from the application, and the `MissingTranslationEvent` object beyond its `translatedMessage`.
- `request` writes `requestUid` into the caller's object or array. The model's parameters are values, so the caller's copy is not shown changing.
- `normalizePath` with a separator longer than one character: `ds` is one character or absent.
- JavaScript strings are UTF-16 code units; the model's characters are whole code points.
- FileHelper.TrimEnd: trims one character at a time. lodash `_trimEnd` first cuts a string that holds a zero-width joiner (U+200D), a combining mark, a variation selector or an astral character into Unicode symbols. A joiner glues the character after it into the symbol before it, so a separator right after U+200D is not trimmed: `a`, U+200D, `/` stays as it is. The grouping is not modelled. On strings without a joiner, and with a separator that is not itself a joiner, combining mark or variation selector, the two agree.
- FileHelper.NormalizePath: inherits the TrimEnd gap. When a trailing separator follows a zero-width joiner, the source's fast path returns a path ending in the separator, so "no trailing separator" does not hold for the source there.
- FileHelper.PlainPathUnchanged: inherits the TrimEnd gap. The source stops trimming at a trailing separator that follows a zero-width joiner: that separator stays, and only the separators after it are removed.
- The `PATTERN_*` constants and `mimeMagicFile` of `File.js`: none of the modelled helpers uses them.

## Findings

| source | as written | input that shows it | evidently intended | confidence | as-written member | corrected member |
|---|---|---|---|---|---|---|
| helpers/File.js:79-86 | after a `..` pops the segment before it, the `..` is still pushed, because there is no `else` | `/a/./b/../c` gives `/a/../c` | `/a/c`, as the doc comment at line 62 says: the pop replaces the push (FileHelper.DocumentedParentExample; FileHelper.ParentCancels for every list) | high; not executed | FileHelper.ParentNotResolved | FileHelper.NormalizePathIntended |
| helpers/File.js:71 | `/\/\\/g` rewrites only a slash followed by a backslash, into two separators, or into one `$` when the separator is `$` (FileHelper.ReplaceSlashBackslashPairs, FileHelper.ReplaceSlashBackslashSplits) | `\a/b\c` comes back unchanged | every slash and backslash becomes the separator, so `/a/b/c`, as the doc comment at line 59 says (FileHelper.DocumentedSeparatorExample) | high; not executed | FileHelper.BackslashesKept | FileHelper.NormalizePathIntended |

=== FILE: comet_client.dfy ===
/** The comet (real-time messaging) client as an immutable state record and
    pure transitions: one per public method and one per transport event.

    The transport is a log of the calls the client made on it, the event bus a
    log of the events it triggered plus a count of registered handlers per
    event name, and a request's promise is its `requestUid`: resolving it
    appends to the `resolved` log. */
module CometClient {
  import opened Wrappers
  import opened Strings
  import opened Json
  import opened Wire

  const EventOpen := "open"
  const EventClose := "close"
  const EventChannel := "channel"
  const EventChannelName := "channel:"
  const EventMessage := "message"
  const EventRequest := "request"

  /** The sentinel channel that stands for "every channel". */
  const ChannelNameAll := "__allVfcOS7"

  const RequestUidField := "requestUid"

  /** What a JavaScript call can throw here. */
  datatype Error = SyntaxError | TypeError

  datatype TransportCall = TransportOpen(url: string) | TransportClose | TransportSend(frame: string)

  /** `params` is the parsed payload (`JNull` for null), `message` the raw
      text payload (None for null). */
  datatype ChannelEvent = ChannelEvent(channel: string, params: Json, message: Option<string>)

  datatype EventData =
    | NoData
    | MessageData(message: string)
    | ChannelData(event: ChannelEvent)
    | RequestData(route: string, params: Json)

  datatype Trigger = Trigger(name: string, data: EventData)

  datatype PendingRequest = PendingRequest(route: string)

  datatype Resolution = Resolution(requestUid: string, response: Json)

  datatype Client = Client(
    serverUrl: string,
    stationUid: string,
    autoSubscribeOnReconnect: bool,
    isOpened: bool,
    forceClosed: bool,
    subscribes: seq<string>,
    requestsInProcess: map<string, PendingRequest>,
    handlers: map<string, nat>,
    transport: seq<TransportCall>,
    triggered: seq<Trigger>,
    resolved: seq<Resolution>)

  /** The transport calls `_sendInternal(frame)` makes: one send while open,
      nothing while closed. */
  function Transmit(isOpened: bool, frame: string): seq<TransportCall> {
    if isOpened then [TransportSend(frame)] else []
  }

  /** One subscribe frame per channel, in order. */
  function SubscribeCalls(channels: seq<string>): seq<TransportCall>
    decreases |channels|
  {
    if |channels| == 0 then []
    else [TransportSend(SubscribeFrame(channels[0]))] + SubscribeCalls(channels[1..])
  }

  function HandlerCount(c: Client, name: string): nat {
    if name in c.handlers then c.handlers[name] else 0
  }

  /** `init()`: a fresh client, opened at once when `autoOpen` is set. */
  function Init(serverUrl: string, stationUid: string, autoOpen: bool, autoSubscribeOnReconnect: bool): (c: Client)
    ensures !c.isOpened && !c.forceClosed
    ensures c.stationUid == stationUid
    ensures c.subscribes == [] && c.requestsInProcess == map[] && c.handlers == map[]
    ensures c.triggered == [] && c.resolved == []
    ensures c.transport == (if autoOpen then [TransportOpen(serverUrl)] else [])
  {
    var initial := Client(serverUrl, stationUid, autoSubscribeOnReconnect, false, false, [], map[], map[], [], [], []);
    if autoOpen then Open(initial) else initial
  }

  /** `open()`: clears the force-closed flag; asks the transport to open only
      while closed. The state itself changes only when the transport reports. */
  function Open(c: Client): (r: Client)
    ensures !r.forceClosed && r.isOpened == c.isOpened
    ensures r.transport == c.transport + (if c.isOpened then [] else [TransportOpen(c.serverUrl)])
    ensures r.(forceClosed := c.forceClosed, transport := c.transport) == c
  {
    c.(forceClosed := false,
       transport := if c.isOpened then c.transport else c.transport + [TransportOpen(c.serverUrl)])
  }

  /** `close()`: sets the force-closed flag; asks the transport to close only
      while open. */
  function Close(c: Client): (r: Client)
    ensures r.forceClosed && r.isOpened == c.isOpened
    ensures r.transport == c.transport + (if c.isOpened then [TransportClose] else [])
    ensures r.(forceClosed := c.forceClosed, transport := c.transport) == c
  {
    c.(forceClosed := true,
       transport := if c.isOpened then c.transport + [TransportClose] else c.transport)
  }

  /** `_sendInternal(frame)`: the frame reaches the transport iff the client
      is open; otherwise it is dropped. The `beforeSend` event it fires is
      not logged. */
  function SendInternal(c: Client, frame: string): (r: Client)
    ensures c.isOpened ==> r.transport == c.transport + [TransportSend(frame)]
    ensures !c.isOpened ==> r == c
    ensures r.(transport := c.transport) == c
  {
    c.(transport := c.transport + Transmit(c.isOpened, frame))
  }

  /** `subscribe(channel)`: nothing if the channel is tracked; otherwise it
      is appended and its subscribe frame goes to the send path. */
  function Subscribe(c: Client, channel: string): (r: Client)
    ensures channel in r.subscribes
    ensures channel in c.subscribes ==> r == c
    ensures channel !in c.subscribes ==>
      && r.subscribes == c.subscribes + [channel]
      && r.transport == c.transport + Transmit(c.isOpened, SubscribeFrame(channel))
    ensures r.(subscribes := c.subscribes, transport := c.transport) == c
    ensures NoDuplicates(c.subscribes) ==> NoDuplicates(r.subscribes)
  {
    if channel in c.subscribes then c
    else SendInternal(c, SubscribeFrame(channel)).(subscribes := c.subscribes + [channel])
  }

  /** `unsubscribe(channel)`: nothing if the channel is not tracked;
      otherwise exactly one occurrence is removed, the others keep their
      order, and the unsubscribe frame goes to the send path. */
  function Unsubscribe(c: Client, channel: string): (r: Client)
    ensures channel !in c.subscribes ==> r == c
    ensures channel in c.subscribes ==>
      && multiset(r.subscribes) == multiset(c.subscribes) - multiset{channel}
      && r.transport == c.transport + Transmit(c.isOpened, UnsubscribeFrame(channel))
    ensures NoDuplicates(c.subscribes) ==>
      && r.subscribes == Without(c.subscribes, channel)
      && NoDuplicates(r.subscribes)
    ensures r.(subscribes := c.subscribes, transport := c.transport) == c
  {
    var i := IndexOf(c.subscribes, channel);
    if i == |c.subscribes| then
      assert NoDuplicates(c.subscribes) ==> Without(c.subscribes, channel) == c.subscribes by {
        WithoutAbsent(c.subscribes, channel);
      }
      c
    else SendInternal(c, UnsubscribeFrame(channel)).(subscribes := RemoveAt(c.subscribes, i))
  }

  /** The text `send` puts on the wire: a string as it is, anything else
      through `JSON.stringify`. */
  function PayloadText(rt: Runtime, data: Json): string {
    if data.JStr? then data.s else rt.stringify(data)
  }

  /** `send(channel, data)`: a channel frame on the send path. */
  function Send(c: Client, rt: Runtime, channel: string, data: Json): (r: Client)
    ensures c.isOpened ==> r.transport == c.transport + [TransportSend(ChannelFrame(channel, PayloadText(rt, data)))]
    ensures !c.isOpened ==> r == c
    ensures r.(transport := c.transport) == c
  {
    SendInternal(c, ChannelFrame(channel, PayloadText(rt, data)))
  }

  /** The parameters `request` sends: `data || {}` with `requestUid` set. On
      an array the property is set but `JSON.stringify` does not show it. */
  function RequestParams(data: Json, uid: string): (d: Json)
    requires !Truthy(data) || data.JObj? || data.JArr?
    ensures d.JObj? ==> RequestUidField in d.fields && d.fields[RequestUidField] == JStr(uid)
    ensures !Truthy(data) ==> d == JObj(map[RequestUidField := JStr(uid)])
    ensures data.JObj? ==> d.JObj? && d.fields.Keys == data.fields.Keys + {RequestUidField}
    ensures data.JObj? ==> forall k :: k in data.fields && k != RequestUidField ==> d.fields[k] == data.fields[k]
    ensures data.JArr? ==> d == data
  {
    var base := if !Truthy(data) then JObj(map[]) else data;
    if base.JObj? then JObj(base.fields[RequestUidField := JStr(uid)]) else base
  }

  /** `request(route, data)` with `uid` the freshly generated identifier: the
      route is stored under the uid and the action frame goes to the send
      path. Setting a property on a truthy primitive throws in strict mode. */
  function Request(c: Client, rt: Runtime, route: string, data: Json, uid: string): (r: Result<Client, Error>)
    ensures r.Failure? <==> Truthy(data) && !data.JObj? && !data.JArr?
    ensures r.Failure? ==> r.error == TypeError
    ensures r.Success? ==>
      && r.value.requestsInProcess == c.requestsInProcess[uid := PendingRequest(route)]
      && r.value.transport == c.transport + Transmit(c.isOpened, ActionFrame(route, rt.stringify(RequestParams(data, uid))))
      && r.value.(requestsInProcess := c.requestsInProcess, transport := c.transport) == c
  {
    if Truthy(data) && !data.JObj? && !data.JArr? then Failure(TypeError)
    else
      var params := RequestParams(data, uid);
      var pending := c.(requestsInProcess := c.requestsInProcess[uid := PendingRequest(route)]);
      Success(SendInternal(pending, ActionFrame(route, rt.stringify(params))))
  }

  /** The `_each(channels, subscribe)` loop of `_onOpen`. */
  function Replay(c: Client, channels: seq<string>): (r: Client)
    ensures r.(subscribes := c.subscribes, transport := c.transport) == c
    ensures c.transport <= r.transport
    decreases |channels|
  {
    if |channels| == 0 then c
    else Replay(Subscribe(c, channels[0]), channels[1..])
  }

  /** Replaying channels that are distinct and not yet tracked appends them
      all in order. */
  lemma {:induction false} ReplayAppends(c: Client, channels: seq<string>)
    requires NoDuplicates(c.subscribes + channels)
    ensures Replay(c, channels).subscribes == c.subscribes + channels
    decreases |channels|
  {
    if |channels| == 0 {
      assert c.subscribes + channels == c.subscribes;
    } else {
      NoDuplicatesShift(c.subscribes, channels);
      var next := Subscribe(c, channels[0]);
      assert next.subscribes + channels[1..] == c.subscribes + channels;
      ReplayAppends(next, channels[1..]);
    }
  }

  /** ... and, while open, sends one subscribe frame for each, in order. */
  lemma {:induction false} ReplaySends(c: Client, channels: seq<string>)
    requires NoDuplicates(c.subscribes + channels)
    ensures Replay(c, channels).transport == c.transport + (if c.isOpened then SubscribeCalls(channels) else [])
    decreases |channels|
  {
    if |channels| == 0 {
      assert c.transport + [] == c.transport;
    } else {
      NoDuplicatesShift(c.subscribes, channels);
      var x := channels[0];
      var next := Subscribe(c, x);
      assert next.isOpened == c.isOpened;
      assert next.subscribes + channels[1..] == c.subscribes + channels;
      ReplaySends(next, channels[1..]);
      var r := Replay(next, channels[1..]);
      if c.isOpened {
        var t := TransportSend(SubscribeFrame(x));
        assert next.transport == c.transport + [t];
        assert (c.transport + [t]) + SubscribeCalls(channels[1..]) == c.transport + ([t] + SubscribeCalls(channels[1..]));
      } else {
        assert next.transport == c.transport;
      }
    }
  }

  /** The transport reports an open connection. Only a real transition does
      anything: the state becomes open first, then with auto-resubscribe the
      tracked channels are cleared and subscribed again in their order, then
      the open event fires. */
  function OnOpen(c: Client): (r: Client)
    ensures r.isOpened
    ensures c.transport <= r.transport
    ensures c.isOpened ==> r == c
    ensures !c.isOpened ==> r.triggered == c.triggered + [Trigger(EventOpen, NoData)]
    ensures !c.isOpened && !c.autoSubscribeOnReconnect ==>
      r == c.(isOpened := true, triggered := c.triggered + [Trigger(EventOpen, NoData)])
    ensures !c.isOpened && c.autoSubscribeOnReconnect && NoDuplicates(c.subscribes) ==>
      && r.subscribes == c.subscribes
      && r.transport == c.transport + SubscribeCalls(c.subscribes)
    ensures r.(isOpened := c.isOpened, subscribes := c.subscribes, transport := c.transport, triggered := c.triggered) == c
  {
    if c.isOpened then c
    else
      var reopened := c.(isOpened := true);
      assert [] + c.subscribes == c.subscribes;
      assert c.autoSubscribeOnReconnect && NoDuplicates(c.subscribes) ==>
        && Replay(reopened.(subscribes := []), c.subscribes).subscribes == c.subscribes
        && Replay(reopened.(subscribes := []), c.subscribes).transport == c.transport + SubscribeCalls(c.subscribes)
      by {
        if c.autoSubscribeOnReconnect && NoDuplicates(c.subscribes) {
          ReplayAppends(reopened.(subscribes := []), c.subscribes);
          ReplaySends(reopened.(subscribes := []), c.subscribes);
        }
      }
      var replayed := if c.autoSubscribeOnReconnect then Replay(reopened.(subscribes := []), c.subscribes) else reopened;
      replayed.(triggered := replayed.triggered + [Trigger(EventOpen, NoData)])
  }

  /** The transport reports a closed connection: only a real transition
      changes the state and fires the close event. */
  function OnClose(c: Client): (r: Client)
    ensures !r.isOpened
    ensures !c.isOpened ==> r == c
    ensures c.isOpened ==> r == c.(isOpened := false, triggered := c.triggered + [Trigger(EventClose, NoData)])
  {
    if c.isOpened then c.(isOpened := false, triggered := c.triggered + [Trigger(EventClose, NoData)])
    else c
  }

  /** `on(name, handler)`: a first `channel` handler subscribes the sentinel
      channel; every `channel:<n>` handler subscribes `n`; then the handler
      is registered. */
  function On(c: Client, name: string): (r: Client)
    ensures HandlerCount(r, name) == HandlerCount(c, name) + 1
    ensures forall n :: n != name ==> HandlerCount(r, n) == HandlerCount(c, n)
    ensures name == EventChannel && HandlerCount(c, name) == 0 ==>
      r.subscribes == (if ChannelNameAll in c.subscribes then c.subscribes else c.subscribes + [ChannelNameAll])
    ensures name == EventChannel && HandlerCount(c, name) == 0 ==>
      r.transport == c.transport + (if ChannelNameAll in c.subscribes then [] else Transmit(c.isOpened, SubscribeFrame(ChannelNameAll)))
    ensures name == EventChannel && HandlerCount(c, name) > 0 ==>
      r.subscribes == c.subscribes && r.transport == c.transport
    ensures StartsWith(name, EventChannelName) ==>
      var n := name[|EventChannelName|..];
      && r.subscribes == (if n in c.subscribes then c.subscribes else c.subscribes + [n])
      && r.transport == c.transport + (if n in c.subscribes then [] else Transmit(c.isOpened, SubscribeFrame(n)))
    ensures name != EventChannel && !StartsWith(name, EventChannelName) ==>
      r.subscribes == c.subscribes && r.transport == c.transport
    ensures NoDuplicates(c.subscribes) ==> NoDuplicates(r.subscribes)
    ensures r.(subscribes := c.subscribes, transport := c.transport, handlers := c.handlers) == c
  {
    assert !StartsWith(EventChannel, EventChannelName);
    var wildcard := if name == EventChannel && HandlerCount(c, name) == 0 then Subscribe(c, ChannelNameAll) else c;
    var named := if StartsWith(name, EventChannelName) then Subscribe(wildcard, name[|EventChannelName|..]) else wildcard;
    named.(handlers := named.handlers[name := HandlerCount(c, name) + 1])
  }

  /** `off(name, handler)`: the Component base class first drops `removed`
      registrations; then the sentinel channel is unsubscribed if no
      `channel` handler is left, and `channel:<n>` unsubscribes `n`
      whatever other handlers on it remain. */
  function Off(c: Client, name: string, removed: nat): (r: Client)
    ensures HandlerCount(r, name) == if removed >= HandlerCount(c, name) then 0 else HandlerCount(c, name) - removed
    ensures forall n :: n != name ==> HandlerCount(r, n) == HandlerCount(c, n)
    ensures name == EventChannel && HandlerCount(r, name) == 0 && NoDuplicates(c.subscribes) ==>
      r.subscribes == Without(c.subscribes, ChannelNameAll)
    ensures name == EventChannel && HandlerCount(r, name) == 0 ==>
      r.transport == c.transport + (if ChannelNameAll in c.subscribes then Transmit(c.isOpened, UnsubscribeFrame(ChannelNameAll)) else [])
    ensures name == EventChannel && HandlerCount(r, name) > 0 ==>
      r.subscribes == c.subscribes && r.transport == c.transport
    ensures StartsWith(name, EventChannelName) && NoDuplicates(c.subscribes) ==>
      r.subscribes == Without(c.subscribes, name[|EventChannelName|..])
    ensures StartsWith(name, EventChannelName) ==>
      var n := name[|EventChannelName|..];
      r.transport == c.transport + (if n in c.subscribes then Transmit(c.isOpened, UnsubscribeFrame(n)) else [])
    ensures name != EventChannel && !StartsWith(name, EventChannelName) ==>
      r.subscribes == c.subscribes && r.transport == c.transport
    ensures NoDuplicates(c.subscribes) ==> NoDuplicates(r.subscribes)
    ensures r.(subscribes := c.subscribes, transport := c.transport, handlers := c.handlers) == c
  {
    assert !StartsWith(EventChannel, EventChannelName);
    var n := HandlerCount(c, name);
    var remaining := if removed >= n then 0 else n - removed;
    var registered := c.(handlers := c.handlers[name := remaining]);
    var wildcard := if name == EventChannel && remaining == 0 then Unsubscribe(registered, ChannelNameAll) else registered;
    if StartsWith(name, EventChannelName) then Unsubscribe(wildcard, name[|EventChannelName|..]) else wildcard
  }

  /** The pending-table key of a response: its `requestUid` property when
      that is truthy (only objects carry it), coerced to a property key. */
  function ResponseKey(rt: Runtime, response: Json): Option<string> {
    if response.JObj? && RequestUidField in response.fields && Truthy(response.fields[RequestUidField])
    then Some(rt.propertyKey(response.fields[RequestUidField]))
    else None
  }

  /** The `action ` branch of `_onMessage`: parse the response (throwing on
      malformed text or on `null`), and if its uid is pending resolve it,
      fire `request` with the stored route and delete the entry. */
  function HandleAction(c: Client, rt: Runtime, body: string): (r: Result<Client, Error>)
    ensures rt.parse(body).None? ==> r == Failure(SyntaxError)
    ensures rt.parse(body) == Some(JNull) ==> r == Failure(TypeError)
    ensures r.Success? ==> rt.parse(body).Some? && rt.parse(body).value != JNull
    ensures r.Success? ==>
      var response := rt.parse(body).value;
      var key := ResponseKey(rt, response);
      if key.Some? && key.value in c.requestsInProcess then
        && r.value.requestsInProcess == c.requestsInProcess - {key.value}
        && r.value.resolved == c.resolved + [Resolution(key.value, response)]
        && r.value.triggered == c.triggered + [Trigger(EventRequest, RequestData(c.requestsInProcess[key.value].route, response))]
        && r.value.(requestsInProcess := c.requestsInProcess, resolved := c.resolved, triggered := c.triggered) == c
      else r.value == c
  {
    match rt.parse(body)
    case None => Failure(SyntaxError)
    case Some(response) =>
      if response.JNull? then Failure(TypeError)
      else
        var key := ResponseKey(rt, response);
        if key.Some? && key.value in c.requestsInProcess then
          var route := c.requestsInProcess[key.value].route;
          Success(c.(requestsInProcess := c.requestsInProcess - {key.value},
                     resolved := c.resolved + [Resolution(key.value, response)],
                     triggered := c.triggered + [Trigger(EventRequest, RequestData(route, response))]))
        else Success(c)
  }

  /** The event a channel body carries: `params` is the parsed payload iff it
      opens with `{` or `[`, `message` is the raw payload iff `params` is
      falsy. A malformed bracketed payload throws. */
  function ChannelEventOf(rt: Runtime, body: string): (r: Result<ChannelEvent, Error>)
    ensures r.Failure? <==> StartsWithBracket(SplitChannelBody(body).rest) && rt.parse(SplitChannelBody(body).rest).None?
    ensures r.Success? ==> r.value.channel == SplitChannelBody(body).channel
    ensures r.Success? && !StartsWithBracket(SplitChannelBody(body).rest) ==>
      r.value.params == JNull && r.value.message == Some(SplitChannelBody(body).rest)
    ensures r.Success? && StartsWithBracket(SplitChannelBody(body).rest) ==>
      Some(r.value.params) == rt.parse(SplitChannelBody(body).rest)
    ensures r.Success? ==> (r.value.message.Some? <==> !Truthy(r.value.params))
    ensures r.Success? && r.value.message.Some? ==> r.value.message.value == SplitChannelBody(body).rest
  {
    var split := SplitChannelBody(body);
    if StartsWithBracket(split.rest) then
      match rt.parse(split.rest)
      case None => Failure(SyntaxError)
      case Some(params) =>
        Success(ChannelEvent(split.channel, params, if Truthy(params) then None else Some(split.rest)))
    else Success(ChannelEvent(split.channel, JNull, Some(split.rest)))
  }

  /** `_onMessage(frame)`: the action branch, then the channel branch
      (`channel:<name>` before `channel`), then the generic `message` event
      for every frame. A throw leaves the state as it was. */
  function OnMessage(c: Client, rt: Runtime, frame: string): (r: Result<Client, Error>)
    ensures StartsWith(frame, ActionCommand) ==>
      match HandleAction(c, rt, frame[|ActionCommand|..])
      case Failure(e) => r == Failure(e)
      case Success(next) => r == Success(next.(triggered := next.triggered + [Trigger(EventMessage, MessageData(frame))]))
    ensures StartsWith(frame, ChannelCommand) ==>
      match ChannelEventOf(rt, frame[|ChannelCommand|..])
      case Failure(e) => r == Failure(e)
      case Success(ev) => r == Success(c.(triggered := c.triggered + [
        Trigger(EventChannelName + ev.channel, ChannelData(ev)),
        Trigger(EventChannel, ChannelData(ev)),
        Trigger(EventMessage, MessageData(frame))]))
    ensures !StartsWith(frame, ActionCommand) && !StartsWith(frame, ChannelCommand) ==>
      r == Success(c.(triggered := c.triggered + [Trigger(EventMessage, MessageData(frame))]))
    ensures r.Success? ==>
      && r.value.subscribes == c.subscribes
      && r.value.transport == c.transport
      && r.value.isOpened == c.isOpened
      && |r.value.triggered| > 0
      && r.value.triggered[|r.value.triggered| - 1] == Trigger(EventMessage, MessageData(frame))
  {
    PrefixesExclusive(frame);
    if StartsWith(frame, ActionCommand) then
      match HandleAction(c, rt, frame[|ActionCommand|..])
      case Failure(e) => Failure(e)
      case Success(next) => Success(next.(triggered := next.triggered + [Trigger(EventMessage, MessageData(frame))]))
    else if StartsWith(frame, ChannelCommand) then
      match ChannelEventOf(rt, frame[|ChannelCommand|..])
      case Failure(e) => Failure(e)
      case Success(ev) => Success(c.(triggered := c.triggered + [
        Trigger(EventChannelName + ev.channel, ChannelData(ev)),
        Trigger(EventChannel, ChannelData(ev)),
        Trigger(EventMessage, MessageData(frame))]))
    else Success(c.(triggered := c.triggered + [Trigger(EventMessage, MessageData(frame))]))
  }

  /** Everything that can happen to a client: a public call or a transport
      event. `CallOff.removed` is how many registrations the base class
      dropped; `CallRequest.uid` is the generated identifier. */
  datatype Input =
    | CallOpen
    | CallClose
    | CallOn(name: string)
    | CallOff(name: string, removed: nat)
    | CallSubscribe(channel: string)
    | CallUnsubscribe(channel: string)
    | CallSend(channel: string, data: Json)
    | CallRequest(route: string, data: Json, uid: string)
    | TransportOpened
    | TransportClosed
    | TransportMessage(frame: string)

  /** One input applied to a client. The transport and event logs only ever
      grow. */
  function Step(c: Client, rt: Runtime, input: Input): (r: Result<Client, Error>)
    ensures r.Failure? ==> input.CallRequest? || input.TransportMessage?
  {
    match input
    case CallOpen => Success(Open(c))
    case CallClose => Success(Close(c))
    case CallOn(name) => Success(On(c, name))
    case CallOff(name, removed) => Success(Off(c, name, removed))
    case CallSubscribe(channel) => Success(Subscribe(c, channel))
    case CallUnsubscribe(channel) => Success(Unsubscribe(c, channel))
    case CallSend(channel, data) => Success(Send(c, rt, channel, data))
    case CallRequest(route, data, uid) => Request(c, rt, route, data, uid)
    case TransportOpened => Success(OnOpen(c))
    case TransportClosed => Success(OnClose(c))
    case TransportMessage(frame) => OnMessage(c, rt, frame)
  }

  /** The client after one input: a call that throws leaves it as it was. */
  function After(c: Client, rt: Runtime, input: Input): Client {
    match Step(c, rt, input)
    case Success(n) => n
    case Failure(_) => c
  }

  /** The transport and event logs only ever grow: no input takes back a
      transport call or an event. */
  lemma {:induction false} AfterGrows(c: Client, rt: Runtime, input: Input)
    ensures c.transport <= After(c, rt, input).transport
    ensures c.triggered <= After(c, rt, input).triggered
  {
    match input
    case CallOpen =>
    case CallClose =>
    case CallOn(name) =>
    case CallOff(name, removed) =>
    case CallSubscribe(channel) =>
    case CallUnsubscribe(channel) =>
    case CallSend(channel, data) =>
    case CallRequest(route, data, uid) =>
    case TransportOpened =>
    case TransportClosed =>
    case TransportMessage(frame) => MessageGrows(c, rt, frame);
  }

  lemma MessageGrows(c: Client, rt: Runtime, frame: string)
    ensures OnMessage(c, rt, frame).Success? ==> c.triggered <= OnMessage(c, rt, frame).value.triggered
  {
    PrefixesExclusive(frame);
    if StartsWith(frame, ActionCommand) && HandleAction(c, rt, frame[|ActionCommand|..]).Success? {
      var next := HandleAction(c, rt, frame[|ActionCommand|..]).value;
      assert c.triggered <= next.triggered;
    }
  }

  /** A run of inputs; the run goes on after a call that throws. */
  function Run(c: Client, rt: Runtime, inputs: seq<Input>): (r: Client)
    ensures c.transport <= r.transport && c.triggered <= r.triggered
    decreases |inputs|
  {
    if |inputs| == 0 then c
    else
      AfterGrows(c, rt, inputs[0]);
      Run(After(c, rt, inputs[0]), rt, inputs[1..])
  }
}

=== FILE: comet_properties.dfy ===
/** Properties of the comet client that relate several transitions: round
    trips, reference counting of the wildcard subscription, replay after a
    reconnect, and invariants every input preserves. */
module CometProperties {
  import opened Wrappers
  import opened Strings
  import opened Json
  import opened Wire
  import opened CometClient

  // ---------------------------------------------------------------------
  // Connection state machine

  /** A repeated transport `open` changes nothing. */
  lemma OnOpenIdempotent(c: Client)
    ensures OnOpen(OnOpen(c)) == OnOpen(c)
  {
  }

  /** A repeated transport `close` changes nothing. */
  lemma OnCloseIdempotent(c: Client)
    ensures OnClose(OnClose(c)) == OnClose(c)
  {
  }

  /** `open()` and `close()` never change the connection state themselves:
      only the transport's events do. */
  lemma CallsDoNotChangeConnectionState(c: Client)
    ensures Open(c).isOpened == c.isOpened && Close(c).isOpened == c.isOpened
    ensures Close(Open(c)).forceClosed && !Open(Close(c)).forceClosed
  {
  }

  /** A transport drop followed by a reconnect, with auto-resubscribe on:
      every channel tracked before is subscribed again exactly once, in the
      order it was first subscribed, and the tracked list is as before. */
  lemma {:induction false} ReconnectReplaysSubscriptions(c: Client)
    requires c.isOpened && c.autoSubscribeOnReconnect
    requires NoDuplicates(c.subscribes)
    ensures OnOpen(OnClose(c)).subscribes == c.subscribes
    ensures OnOpen(OnClose(c)).transport == c.transport + SubscribeCalls(c.subscribes)
    ensures OnOpen(OnClose(c)).triggered == c.triggered + [Trigger(EventClose, NoData), Trigger(EventOpen, NoData)]
  {
    var closed := OnClose(c);
    assert closed.subscribes == c.subscribes && closed.transport == c.transport;
    assert closed.triggered + [Trigger(EventOpen, NoData)] == c.triggered + [Trigger(EventClose, NoData), Trigger(EventOpen, NoData)];
  }

  /** While closed nothing but a transport `open` can put a frame on the
      wire: every transport call an input adds is then an open request or
      nothing. */
  lemma {:induction false} ClosedClientSendsNothing(c: Client, rt: Runtime, input: Input)
    requires !c.isOpened && !input.TransportOpened?
    ensures Step(c, rt, input).Success? ==>
      var r := Step(c, rt, input).value;
      forall k :: |c.transport| <= k < |r.transport| ==> r.transport[k] == TransportOpen(c.serverUrl)
  {
    match input
    case CallOn(name) =>
      assert !StartsWith(EventChannel, EventChannelName);
      var wildcard := if name == EventChannel && HandlerCount(c, name) == 0 then Subscribe(c, ChannelNameAll) else c;
      assert wildcard.transport == c.transport && !wildcard.isOpened;
    case CallOff(name, removed) =>
      assert !StartsWith(EventChannel, EventChannelName);
    case _ =>
  }

  // ---------------------------------------------------------------------
  // Subscriptions

  /** Subscribing to an untracked channel and unsubscribing it again
      restores the list; while open the wire sees both frames in order. */
  lemma SubscribeUnsubscribeRoundTrip(c: Client, channel: string)
    requires NoDuplicates(c.subscribes) && channel !in c.subscribes
    ensures Unsubscribe(Subscribe(c, channel), channel).subscribes == c.subscribes
    ensures c.isOpened ==>
      Unsubscribe(Subscribe(c, channel), channel).transport
        == c.transport + [TransportSend(SubscribeFrame(channel)), TransportSend(UnsubscribeFrame(channel))]
  {
    var s := Subscribe(c, channel);
    assert s.subscribes[|c.subscribes|] == channel;
    assert s.subscribes[..|c.subscribes|] + s.subscribes[|c.subscribes| + 1..] == c.subscribes;
    RemoveAtIsWithout(s.subscribes, |c.subscribes|);
  }

  /** The net intent of a run for one channel: the last subscribe or
      unsubscribe call on it decides, `initially` if there is none. */
  function NetSubscribed(inputs: seq<Input>, channel: string, initially: bool): bool
    decreases |inputs|
  {
    if |inputs| == 0 then initially
    else
      var now :=
        if inputs[0] == CallSubscribe(channel) then true
        else if inputs[0] == CallUnsubscribe(channel) then false
        else initially;
      NetSubscribed(inputs[1..], channel, now)
  }

  /** For any run of subscribe and unsubscribe calls the list stays free of
      duplicates and holds a channel exactly when the run's net effect left
      it subscribed. */
  lemma {:induction false} TrackedIffNetSubscribed(c: Client, rt: Runtime, inputs: seq<Input>, channel: string)
    requires NoDuplicates(c.subscribes)
    requires forall k :: 0 <= k < |inputs| ==> inputs[k].CallSubscribe? || inputs[k].CallUnsubscribe?
    ensures NoDuplicates(Run(c, rt, inputs).subscribes)
    ensures channel in Run(c, rt, inputs).subscribes <==> NetSubscribed(inputs, channel, channel in c.subscribes)
    decreases |inputs|
  {
    if |inputs| > 0 {
      var next := After(c, rt, inputs[0]);
      TrackedStep(c, rt, inputs[0], channel);
      TrackedIffNetSubscribed(next, rt, inputs[1..], channel);
    }
  }

  /** One subscribe or unsubscribe call keeps the list free of duplicates
      and moves only the channel it names. */
  lemma TrackedStep(c: Client, rt: Runtime, input: Input, channel: string)
    requires NoDuplicates(c.subscribes)
    requires input.CallSubscribe? || input.CallUnsubscribe?
    ensures NoDuplicates(After(c, rt, input).subscribes)
    ensures channel in After(c, rt, input).subscribes <==>
      if input == CallSubscribe(channel) then true
      else if input == CallUnsubscribe(channel) then false
      else channel in c.subscribes
  {
    if input.CallUnsubscribe? && channel != input.channel {
      WithoutKeepsOthers(c.subscribes, input.channel, channel);
    }
  }

  // ---------------------------------------------------------------------
  // Handler side effects

  /** The wildcard subscription follows the wildcard handlers: the sentinel
      channel is tracked exactly when some `channel` handler is registered. */
  ghost predicate WildcardConsistent(c: Client) {
    HandlerCount(c, EventChannel) > 0 <==> ChannelNameAll in c.subscribes
  }

  /** Adding a `channel` handler keeps the wildcard consistent and puts a
      subscribe frame on the send path only for the first handler. */
  lemma OnWildcardKeepsConsistent(c: Client)
    requires NoDuplicates(c.subscribes) && WildcardConsistent(c)
    ensures WildcardConsistent(On(c, EventChannel))
    ensures On(c, EventChannel).transport == c.transport
      + (if HandlerCount(c, EventChannel) == 0 then Transmit(c.isOpened, SubscribeFrame(ChannelNameAll)) else [])
  {
    assert !StartsWith(EventChannel, EventChannelName);
  }

  /** Removing `channel` handlers keeps the wildcard consistent and puts an
      unsubscribe frame on the send path only when the last one goes. */
  lemma OffWildcardKeepsConsistent(c: Client, removed: nat)
    requires NoDuplicates(c.subscribes) && WildcardConsistent(c)
    ensures WildcardConsistent(Off(c, EventChannel, removed))
    ensures Off(c, EventChannel, removed).transport == c.transport
      + (if HandlerCount(c, EventChannel) > 0 && removed >= HandlerCount(c, EventChannel)
         then Transmit(c.isOpened, UnsubscribeFrame(ChannelNameAll)) else [])
  {
    assert !StartsWith(EventChannel, EventChannelName);
  }

  /** Two wildcard observers on an open client: one subscribe frame for the
      sentinel channel; removing one observer sends nothing; removing the
      second sends exactly one unsubscribe frame. */
  lemma {:induction false} WildcardReferenceCounted(c: Client)
    requires c.isOpened && NoDuplicates(c.subscribes)
    requires HandlerCount(c, EventChannel) == 0 && ChannelNameAll !in c.subscribes
    ensures
      var twice := On(On(c, EventChannel), EventChannel);
      var once := Off(twice, EventChannel, 1);
      var none := Off(once, EventChannel, 1);
      && twice.transport == c.transport + [TransportSend(SubscribeFrame(ChannelNameAll))]
      && once.transport == twice.transport && ChannelNameAll in once.subscribes
      && none.transport == once.transport + [TransportSend(UnsubscribeFrame(ChannelNameAll))]
      && ChannelNameAll !in none.subscribes
  {
    var first := On(c, EventChannel);
    OnWildcardKeepsConsistent(c);
    var twice := On(first, EventChannel);
    OnWildcardKeepsConsistent(first);
    var once := Off(twice, EventChannel, 1);
    OffWildcardKeepsConsistent(twice, 1);
    var none := Off(once, EventChannel, 1);
    OffWildcardKeepsConsistent(once, 1);
  }

  /** Per-channel handlers are not reference counted: with two handlers on
      `channel:<n>`, removing one unsubscribes `n`, and an open client sends
      the unsubscribe frame, although the other handler is still
      registered. */
  lemma PerChannelNotReferenceCounted(c: Client, n: string)
    requires NoDuplicates(c.subscribes)
    ensures
      var name := EventChannelName + n;
      var twice := On(On(c, name), name);
      var once := Off(twice, name, 1);
      && HandlerCount(once, name) == HandlerCount(c, name) + 1 && n !in once.subscribes
      && (c.isOpened ==> once.transport == twice.transport + [TransportSend(UnsubscribeFrame(n))])
  {
    var name := EventChannelName + n;
    assert StartsWith(name, EventChannelName);
    assert name[|EventChannelName|..] == n;
    var twice := On(On(c, name), name);
    assert n in twice.subscribes && twice.isOpened == c.isOpened;
  }

  /** The two structural event-name families never overlap. */
  lemma NameFamiliesDisjoint(n: string)
    ensures EventChannelName + n != EventChannel
    ensures !StartsWith(EventChannel, EventChannelName)
  {
    assert |EventChannelName + n| >= 8;
  }

  // ---------------------------------------------------------------------
  // Channel messages

  /** For an engine that keeps its laws, a channel event carries exactly one
      of a parsed payload and a raw text payload. */
  lemma {:induction false} ChannelEventExactlyOnePayload(rt: Runtime, body: string)
    requires Lawful(rt)
    ensures ChannelEventOf(rt, body).Success? ==>
      var ev := ChannelEventOf(rt, body).value;
      ev.params == JNull <==> ev.message.Some?
  {
    var rest := SplitChannelBody(body).rest;
    if StartsWithBracket(rest) && rt.parse(rest).Some? {
      assert rt.parse(rest).value.JObj? || rt.parse(rest).value.JArr?;
    }
  }

  /** What `send(channel, data)` puts on the wire comes back out of
      `_onMessage` as the same channel and data, when the channel name has
      no space: objects and arrays as parsed `params`, other values as the
      raw `message` text (a string as itself, unless it opens with a
      bracket); `channel:<name>` fires before `channel`, then `message`. */
  lemma {:induction false} SendReceiveRoundTrip(c: Client, rt: Runtime, channel: string, data: Json)
    requires Lawful(rt) && ' ' !in channel
    requires data.JStr? ==> !StartsWithBracket(data.s)
    ensures
      var text := PayloadText(rt, data);
      var frame := ChannelFrame(channel, text);
      var ev := if data.JObj? || data.JArr? then ChannelEvent(channel, data, None)
                else ChannelEvent(channel, JNull, Some(text));
      OnMessage(c, rt, frame) == Success(c.(triggered := c.triggered + [
        Trigger(EventChannelName + channel, ChannelData(ev)),
        Trigger(EventChannel, ChannelData(ev)),
        Trigger(EventMessage, MessageData(frame))]))
  {
    var text := PayloadText(rt, data);
    var frame := ChannelFrame(channel, text);
    ChannelFrameRoundTrip(channel, text);
    if data.JObj? || data.JArr? {
      assert StartsWithBracket(text);
      assert rt.parse(text) == Some(data);
    } else if !data.JStr? {
      assert !StartsWithBracket(rt.stringify(data));
    }
    CommandsDistinct(channel, text, "", "");
  }

  // ---------------------------------------------------------------------
  // Request correlation

  /** The server side of a request: the action frame's JSON parses back to
      parameters that carry the generated uid. */
  lemma RequestCarriesUid(rt: Runtime, data: Json, uid: string)
    requires Lawful(rt) && (!Truthy(data) || data.JObj?)
    ensures rt.parse(rt.stringify(RequestParams(data, uid))) == Some(RequestParams(data, uid))
    ensures RequestParams(data, uid).JObj? && RequestParams(data, uid).fields[RequestUidField] == JStr(uid)
  {
  }

  /** A response for a request: resolves it with the response, fires
      `request` with the route stored at request time, and leaves the pending
      table as it was before the request. */
  lemma {:induction false} RequestResponseRoundTrip(c: Client, rt: Runtime, route: string, data: Json, uid: string, response: Json)
    requires Lawful(rt)
    requires !Truthy(data) || data.JObj? || data.JArr?
    requires uid != "" && uid !in c.requestsInProcess
    requires response.JObj? && RequestUidField in response.fields && response.fields[RequestUidField] == JStr(uid)
    ensures Request(c, rt, route, data, uid).Success?
    ensures
      var sent := Request(c, rt, route, data, uid).value;
      var frame := ActionCommand + rt.stringify(response);
      && OnMessage(sent, rt, frame).Success?
      && OnMessage(sent, rt, frame).value.requestsInProcess == c.requestsInProcess
      && OnMessage(sent, rt, frame).value.resolved == c.resolved + [Resolution(uid, response)]
      && OnMessage(sent, rt, frame).value.triggered == c.triggered + [
           Trigger(EventRequest, RequestData(route, response)),
           Trigger(EventMessage, MessageData(frame))]
  {
    var sent := Request(c, rt, route, data, uid).value;
    var frame := ActionCommand + rt.stringify(response);
    assert StartsWith(frame, ActionCommand) && frame[|ActionCommand|..] == rt.stringify(response);
    assert rt.parse(rt.stringify(response)) == Some(response);
    assert ResponseKey(rt, response) == Some(uid);
    assert uid in sent.requestsInProcess;
    assert sent.requestsInProcess - {uid} == c.requestsInProcess;
    var received := OnMessage(sent, rt, frame).value;
    assert received.triggered == sent.triggered + [
      Trigger(EventRequest, RequestData(route, response)),
      Trigger(EventMessage, MessageData(frame))];
  }

  /** A response whose uid is not pending (unknown, late or a duplicate)
      resolves nothing and fires no request event: only `message` fires. */
  lemma UnknownResponseIgnored(c: Client, rt: Runtime, response: Json)
    requires Lawful(rt) && response != JNull
    requires ResponseKey(rt, response).None? || ResponseKey(rt, response).value !in c.requestsInProcess
    ensures
      var frame := ActionCommand + rt.stringify(response);
      OnMessage(c, rt, frame) == Success(c.(triggered := c.triggered + [Trigger(EventMessage, MessageData(frame))]))
  {
    var frame := ActionCommand + rt.stringify(response);
    assert StartsWith(frame, ActionCommand) && frame[|ActionCommand|..] == rt.stringify(response);
    assert rt.parse(rt.stringify(response)) == Some(response);
  }

  /** A pending request is resolved at most once: delivering the same
      response twice resolves and announces it only the first time. */
  lemma {:induction false} ResolvedOnlyOnce(c: Client, rt: Runtime, response: Json)
    requires Lawful(rt) && response != JNull
    requires ResponseKey(rt, response).Some? && ResponseKey(rt, response).value in c.requestsInProcess
    ensures
      var frame := ActionCommand + rt.stringify(response);
      var once := OnMessage(c, rt, frame);
      && once.Success?
      && |once.value.resolved| == |c.resolved| + 1
      && OnMessage(once.value, rt, frame) == Success(once.value.(triggered := once.value.triggered + [Trigger(EventMessage, MessageData(frame))]))
  {
    var frame := ActionCommand + rt.stringify(response);
    assert StartsWith(frame, ActionCommand) && frame[|ActionCommand|..] == rt.stringify(response);
    assert rt.parse(rt.stringify(response)) == Some(response);
    var once := OnMessage(c, rt, frame).value;
    assert ResponseKey(rt, response).value !in once.requestsInProcess;
    UnknownResponseIgnored(once, rt, response);
  }

  // ---------------------------------------------------------------------
  // Invariants of every input

  function ResolvedUids(resolved: seq<Resolution>): (uids: seq<string>)
    ensures |uids| == |resolved|
    ensures forall k :: 0 <= k < |resolved| ==> uids[k] == resolved[k].requestUid
  {
    seq(|resolved|, k requires 0 <= k < |resolved| => resolved[k].requestUid)
  }

  /** The client invariant: no channel is tracked twice, no request is
      resolved twice, and nothing pending has been resolved already. */
  ghost predicate Valid(c: Client) {
    && NoDuplicates(c.subscribes)
    && NoDuplicates(ResolvedUids(c.resolved))
    && (forall uid :: uid in c.requestsInProcess ==> uid !in ResolvedUids(c.resolved))
  }

  /** What the generated identifier must satisfy: it has not been resolved
      before (a fresh identifier never has). */
  ghost predicate FreshUid(c: Client, input: Input) {
    input.CallRequest? ==> input.uid !in ResolvedUids(c.resolved)
  }

  /** Every input keeps the invariant. */
  lemma {:induction false} StepPreservesValid(c: Client, rt: Runtime, input: Input)
    requires Valid(c) && FreshUid(c, input)
    ensures Step(c, rt, input).Success? ==> Valid(Step(c, rt, input).value)
  {
    match input
    case TransportOpened =>
      if !c.isOpened && c.autoSubscribeOnReconnect {
        assert OnOpen(c).subscribes == c.subscribes;
      }
    case TransportMessage(frame) =>
      if OnMessage(c, rt, frame).Success? && StartsWith(frame, ActionCommand) {
        var r := OnMessage(c, rt, frame).value;
        var response := rt.parse(frame[|ActionCommand|..]).value;
        var key := ResponseKey(rt, response);
        if key.Some? && key.value in c.requestsInProcess {
          ResolveKeepsUnique(c.resolved, key.value, response);
        }
      }
    case _ =>
  }

  /** Appending a resolution for a uid not resolved before keeps the uids
      distinct. */
  lemma ResolveKeepsUnique(resolved: seq<Resolution>, uid: string, response: Json)
    requires NoDuplicates(ResolvedUids(resolved)) && uid !in ResolvedUids(resolved)
    ensures ResolvedUids(resolved + [Resolution(uid, response)]) == ResolvedUids(resolved) + [uid]
    ensures NoDuplicates(ResolvedUids(resolved + [Resolution(uid, response)]))
  {
    var before := ResolvedUids(resolved);
    var after := ResolvedUids(resolved + [Resolution(uid, response)]);
    assert after == before + [uid];
  }

  /** Every input of a run whose generated identifiers are fresh keeps the
      invariant. */
  lemma {:induction false} RunPreservesValid(c: Client, rt: Runtime, inputs: seq<Input>)
    requires Valid(c)
    requires forall k :: 0 <= k < |inputs| && inputs[k].CallRequest? ==>
      inputs[k].uid !in ResolvedUids(Run(c, rt, inputs[..k]).resolved)
    ensures Valid(Run(c, rt, inputs))
    decreases |inputs|
  {
    if |inputs| > 0 {
      assert inputs[..0] == [];
      assert FreshUid(c, inputs[0]);
      StepPreservesValid(c, rt, inputs[0]);
      var next := After(c, rt, inputs[0]);
      forall k | 0 <= k < |inputs[1..]| && inputs[1..][k].CallRequest?
        ensures inputs[1..][k].uid !in ResolvedUids(Run(next, rt, inputs[1..][..k]).resolved)
      {
        assert inputs[..k + 1] == [inputs[0]] + inputs[1..][..k];
        assert Run(c, rt, inputs[..k + 1]) == Run(next, rt, inputs[1..][..k]);
      }
      RunPreservesValid(next, rt, inputs[1..]);
    }
  }
}

=== FILE: file_helper.dfy ===
/** The path helpers of `Jii.helpers.File`. Each regular-expression helper
    is given a reference predicate saying where its pattern matches, and the
    function computing the result is proved to agree with the replace/exec
    semantics of that pattern (leftmost match, `$` at the end of input, `.`
    not matching line terminators, `[^\/]` matching them). */
module FileHelper {
  import opened Wrappers
  import opened Strings

  /** The characters `.` does not match: LF, CR, LS and PS. */
  predicate IsLineTerminator(c: char) {
    c == '\n' || c == '\r' || c == '\U{2028}' || c == '\U{2029}'
  }

  ghost predicate NoLineTerminator(s: string) {
    forall k :: 0 <= k < |s| ==> !IsLineTerminator(s[k])
  }

  /** What `[^\/]+` matches: a non-empty run without a slash. */
  predicate IsSegment(s: string) {
    |s| > 0 && '/' !in s
  }

  // ---------------------------------------------------------------------
  // getFileDirectory: path.replace(/\/?[^\/]+$/, '')

  /** `/\/?[^\/]+$/` matches starting at `i`. */
  ghost predicate DirPatternAt(p: string, i: nat) {
    i <= |p| && (IsSegment(p[i..]) || (i < |p| && p[i] == '/' && IsSegment(p[i + 1..])))
  }

  /** A slash at `k` keeps every suffix starting at or before `k` from
      being a segment. */
  lemma SlashBlocksSegment(p: string, i: nat, k: nat)
    requires i <= k < |p| && p[k] == '/'
    ensures !IsSegment(p[i..])
  {
    assert p[i..][k - i] == '/';
  }

  /** A slash after `i` keeps the directory pattern from matching at `i`. */
  lemma SlashBlocksDirPattern(p: string, i: nat, k: nat)
    requires i < k < |p| && p[k] == '/'
    ensures !DirPatternAt(p, i)
  {
    SlashBlocksSegment(p, i, k);
    SlashBlocksSegment(p, i + 1, k);
  }

  /** With a trailing slash the directory pattern matches nowhere. */
  lemma DirNoMatchTrailing(p: string)
    requires |p| > 0 && p[|p| - 1] == '/'
    ensures forall i :: 0 <= i <= |p| ==> !DirPatternAt(p, i)
  {
    forall i | 0 <= i <= |p|
      ensures !DirPatternAt(p, i)
    {
      if i < |p| - 1 {
        SlashBlocksDirPattern(p, i, |p| - 1);
      } else if i == |p| - 1 {
        SlashBlocksSegment(p, i, i);
        assert p[i + 1..] == [];
      }
    }
  }

  /** Without a slash in the path, the pattern matches the whole path. */
  lemma DirMatchNoSlash(p: string)
    requires |p| > 0 && '/' !in p
    ensures DirPatternAt(p, 0)
  {
    assert p[0..] == p;
  }

  /** After the last slash, the pattern matches at that slash and at no
      earlier position. */
  lemma DirMatchAtSlash(p: string, last: nat)
    requires last < |p| - 1 && p[last] == '/' && '/' !in p[last + 1..]
    ensures DirPatternAt(p, last)
    ensures forall j :: 0 <= j < last ==> !DirPatternAt(p, j)
  {
    forall j | 0 <= j < last
      ensures !DirPatternAt(p, j)
    {
      SlashBlocksDirPattern(p, j, last);
    }
  }

  /** Where the last slash sits decides every match of the directory pattern. */
  lemma DirMatches(p: string)
    ensures LastIndexOf(p, '/') == |p| - 1 ==> forall i :: 0 <= i <= |p| ==> !DirPatternAt(p, i)
    ensures LastIndexOf(p, '/') < |p| - 1 ==>
      var start := if LastIndexOf(p, '/') == -1 then 0 else LastIndexOf(p, '/');
      DirPatternAt(p, start) && forall j :: 0 <= j < start ==> !DirPatternAt(p, j)
  {
    var last := LastIndexOf(p, '/');
    if last == |p| - 1 {
      if |p| > 0 {
        DirNoMatchTrailing(p);
      }
    } else if last == -1 {
      DirMatchNoSlash(p);
    } else {
      AbsentAfterLast(p, '/');
      DirMatchAtSlash(p, last);
    }
  }

  /** `getFileDirectory`: the path without its final segment and the slash
      before it; a path ending in a slash (or empty) is returned unchanged. */
  function GetFileDirectory(p: string): string {
    var last := LastIndexOf(p, '/');
    if last == |p| - 1 then p
    else if last == -1 then ""
    else p[..last]
  }

  /** `getFileDirectory` is the replace: without a match the path comes
      back unchanged, otherwise the text from the leftmost match on is
      removed. */
  lemma DirectoryMatchesRegex(p: string)
    ensures (forall i :: 0 <= i <= |p| ==> !DirPatternAt(p, i)) ==> GetFileDirectory(p) == p
    ensures forall i :: 0 <= i <= |p| && DirPatternAt(p, i) && (forall j :: 0 <= j < i ==> !DirPatternAt(p, j)) ==>
      GetFileDirectory(p) == p[..i]
  {
    DirMatches(p);
  }

  // ---------------------------------------------------------------------
  // getFileName: path.replace(/(.*\/)?([^\/]+)$/, '$2')

  /** The optional group `(.*\/)` spans `p[i..j]`: a run free of line
      terminators closed by a slash. */
  ghost predicate DirGroup(p: string, i: nat, j: nat) {
    i < j <= |p| && p[j - 1] == '/' && NoLineTerminator(p[i..j - 1])
  }

  /** `/(.*\/)?([^\/]+)$/` matches starting at `i`, its second group
      starting at `j`. */
  ghost predicate NamePatternAt(p: string, i: nat, j: nat) {
    i <= j <= |p| && (i == j || DirGroup(p, i, j)) && IsSegment(p[j..])
  }

  ghost predicate NameMatchesAt(p: string, i: nat) {
    exists j :: NamePatternAt(p, i, j)
  }

  /** The position just after the last line terminator of `s`, 0 if none. */
  function LineStart(s: string): (t: nat)
    ensures t <= |s|
    ensures NoLineTerminator(s[t..])
    ensures t > 0 ==> IsLineTerminator(s[t - 1])
  {
    if |s| == 0 then 0
    else if IsLineTerminator(s[|s| - 1]) then |s|
    else
      var t := LineStart(s[..|s| - 1]);
      assert s[t..] == s[..|s| - 1][t..] + [s[|s| - 1]];
      t
  }

  /** In a text without line breaks every prefix is a single line. */
  lemma LineStartOfPlain(s: string, n: nat)
    requires NoLineTerminator(s) && n <= |s|
    ensures LineStart(s[..n]) == 0
  {
    forall k | 0 <= k < n
      ensures !IsLineTerminator(s[..n][k])
    {
      assert s[..n][k] == s[k];
    }
  }

  /** A match of the name pattern puts its second group just after the last
      slash, or (without the group) inside the final segment. */
  lemma NameGroupAfterLastSlash(p: string, i: nat, j: nat)
    requires NamePatternAt(p, i, j)
    ensures j > LastIndexOf(p, '/')
    ensures i != j ==> j == LastIndexOf(p, '/') + 1
  {
  }

  /** `getFileName`: the final segment, kept behind whatever precedes the
      last line break before the last slash (`.` stops at line breaks); a path
      ending in a slash (or empty) is returned unchanged. */
  function GetFileName(p: string): string {
    var last := LastIndexOf(p, '/');
    if last == |p| - 1 || last == -1 then p
    else p[..LineStart(p[..last])] + p[last + 1..]
  }

  /** A path ending in a slash has no match of the name pattern. */
  lemma NoNameMatch(p: string)
    requires LastIndexOf(p, '/') == |p| - 1
    ensures forall i :: 0 <= i <= |p| ==> !NameMatchesAt(p, i)
  {
    forall i: nat, j: nat | NamePatternAt(p, i, j)
      ensures false
    {
      NameGroupAfterLastSlash(p, i, j);
    }
  }

  /** Without a slash the only match at 0 is the bare name. */
  lemma NameMatchWithoutSlash(p: string)
    requires LastIndexOf(p, '/') == -1 && |p| > 0
    ensures NamePatternAt(p, 0, 0)
    ensures forall j: nat :: NamePatternAt(p, 0, j) ==> j == 0
  {
    forall j: nat | NamePatternAt(p, 0, j)
      ensures j == 0
    {
      NameGroupAfterLastSlash(p, 0, j);
    }
  }

  /** The group `(.*\/)` cannot reach back over a line break: it starts no
      earlier than the line of the slash that closes it. */
  lemma GroupWithinLine(p: string, i: nat, j: nat)
    requires DirGroup(p, i, j)
    ensures i >= LineStart(p[..j - 1])
  {
    var t := LineStart(p[..j - 1]);
    assert t > 0 ==> p[..j - 1][t - 1] == p[t - 1];
    forall k | i <= k < j - 1
      ensures !IsLineTerminator(p[k])
    {
      assert p[i..j - 1][k - i] == p[k];
    }
  }

  /** With a slash before the final segment, the leftmost match starts at
      the beginning of the last slash's line and its name group right after
      that slash. */
  lemma NameMatchAfterSlash(p: string)
    requires 0 <= LastIndexOf(p, '/') < |p| - 1
    ensures var last := LastIndexOf(p, '/'); var t := LineStart(p[..last]);
      && NamePatternAt(p, t, last + 1)
      && (forall i: nat, j: nat :: NamePatternAt(p, i, j) ==> t <= i && (i <= t ==> j == last + 1))
  {
    NameMatchAtLineStart(p);
    forall i: nat, j: nat | NamePatternAt(p, i, j)
      ensures LineStart(p[..LastIndexOf(p, '/')]) <= i && (i <= LineStart(p[..LastIndexOf(p, '/')]) ==> j == LastIndexOf(p, '/') + 1)
    {
      MatchNotBeforeLineStart(p, i, j);
    }
  }

  /** The pattern matches from the start of the last slash's line. */
  lemma NameMatchAtLineStart(p: string)
    requires 0 <= LastIndexOf(p, '/') < |p| - 1
    ensures NamePatternAt(p, LineStart(p[..LastIndexOf(p, '/')]), LastIndexOf(p, '/') + 1)
  {
    var last := LastIndexOf(p, '/');
    var t := LineStart(p[..last]);
    assert p[..last][t..] == p[t..last];
    AbsentAfterLast(p, '/');
  }

  /** No match starts before the last slash's line, and one starting there
      has its name group right after that slash. */
  lemma MatchNotBeforeLineStart(p: string, i: nat, j: nat)
    requires 0 <= LastIndexOf(p, '/') < |p| - 1 && NamePatternAt(p, i, j)
    ensures var t := LineStart(p[..LastIndexOf(p, '/')]); t <= i && (i <= t ==> j == LastIndexOf(p, '/') + 1)
  {
    var last := LastIndexOf(p, '/');
    NameGroupAfterLastSlash(p, i, j);
    if i != j {
      GroupInLastSlashLine(p, i, j);
    } else {
      assert LineStart(p[..last]) <= last < i;
    }
  }

  /** A match with the group `(.*\/)` starts in the line of the last slash. */
  lemma GroupInLastSlashLine(p: string, i: nat, j: nat)
    requires DirGroup(p, i, j) && j == LastIndexOf(p, '/') + 1
    ensures i >= LineStart(p[..LastIndexOf(p, '/')])
  {
    GroupWithinLine(p, i, j);
  }

  /** `r` is what `p.replace(/(.*\/)?([^\/]+)$/, '$2')` gives: `p` without
      a match, otherwise `p` with its leftmost match replaced by the second
      group. */
  ghost predicate NameReplaceGives(p: string, r: string) {
    && ((forall i :: 0 <= i <= |p| ==> !NameMatchesAt(p, i)) ==> r == p)
    && (forall i: nat, j: nat :: NamePatternAt(p, i, j) && (forall h :: 0 <= h < i ==> !NameMatchesAt(p, h)) ==>
          r == p[..i] + p[j..])
  }

  lemma FileNameEndingSlash(p: string)
    requires LastIndexOf(p, '/') == |p| - 1
    ensures NameReplaceGives(p, GetFileName(p))
  {
    NoNameMatch(p);
    forall i: nat, j: nat | NamePatternAt(p, i, j)
      ensures false
    {
      assert NameMatchesAt(p, i);
    }
  }

  lemma FileNameWithoutSlash(p: string)
    requires LastIndexOf(p, '/') == -1 && |p| > 0
    ensures NameReplaceGives(p, GetFileName(p))
  {
    NameMatchWithoutSlash(p);
    assert NameMatchesAt(p, 0);
    assert p[..0] + p[0..] == p;
  }

  lemma FileNameAfterSlash(p: string)
    requires 0 <= LastIndexOf(p, '/') < |p| - 1
    ensures NameReplaceGives(p, GetFileName(p))
  {
    var last := LastIndexOf(p, '/');
    var t := LineStart(p[..last]);
    var r := p[..t] + p[last + 1..];
    assert GetFileName(p) == r;
    NameMatchAfterSlash(p);
    LeftmostNameMatch(p, t, last + 1);
    assert NameReplaceGives(p, r);
  }

  /** When every match starts at `t` or later and one starts at `t` with
      its name at `j`, the replace gives `p[..t] + p[j..]`. */
  lemma LeftmostNameMatch(p: string, t: nat, j: nat)
    requires NamePatternAt(p, t, j)
    requires forall i: nat, k: nat :: NamePatternAt(p, i, k) ==> t <= i && (i <= t ==> k == j)
    ensures NameReplaceGives(p, p[..t] + p[j..])
  {
    assert NameMatchesAt(p, t);
  }

  /** `getFileName` is the replace: without a match the path comes back
      unchanged, otherwise the leftmost match gives way to its second
      group. */
  lemma FileNameMatchesRegex(p: string)
    ensures (forall i :: 0 <= i <= |p| ==> !NameMatchesAt(p, i)) ==> GetFileName(p) == p
    ensures forall i: nat, j: nat :: NamePatternAt(p, i, j) && (forall h :: 0 <= h < i ==> !NameMatchesAt(p, h)) ==>
      GetFileName(p) == p[..i] + p[j..]
  {
    var last := LastIndexOf(p, '/');
    if last == |p| - 1 {
      FileNameEndingSlash(p);
    } else if last == -1 {
      FileNameWithoutSlash(p);
    } else {
      FileNameAfterSlash(p);
    }
  }

  // ---------------------------------------------------------------------
  // getFileExtension: /\.([a-z]+)$/.exec(path)

  predicate IsLower(c: char) {
    'a' <= c <= 'z'
  }

  ghost predicate AllLower(s: string) {
    forall k :: 0 <= k < |s| ==> IsLower(s[k])
  }

  /** `/\.([a-z]+)$/` matches starting at `i`. */
  ghost predicate ExtPatternAt(p: string, i: nat) {
    i + 1 < |p| && p[i] == '.' && AllLower(p[i + 1..])
  }

  /** The length of the longest all-lower-case suffix of `s`. */
  function LowerSuffixLength(s: string): (n: nat)
    ensures n <= |s|
    ensures AllLower(s[|s| - n..])
    ensures n < |s| ==> !IsLower(s[|s| - n - 1])
  {
    if |s| == 0 || !IsLower(s[|s| - 1]) then 0
    else
      var n := LowerSuffixLength(s[..|s| - 1]);
      LowerSuffixGrows(s, n);
      n + 1
  }

  /** A lower-case letter at the end extends a lower-case suffix of what
      precedes it. */
  lemma LowerSuffixGrows(s: string, n: nat)
    requires 0 < |s| && n <= |s| - 1 && IsLower(s[|s| - 1])
    requires AllLower(s[..|s| - 1][|s| - 1 - n..])
    ensures AllLower(s[|s| - (n + 1)..])
  {
    var front := s[..|s| - 1][|s| - 1 - n..];
    var suffix := s[|s| - (n + 1)..];
    forall k | 0 <= k < |suffix|
      ensures IsLower(suffix[k])
    {
      if k < n {
        assert suffix[k] == front[k];
      }
    }
  }

  /** `getFileExtension`: the lower-case letters after the final dot when
      the path ends in them, otherwise the empty string. */
  function GetFileExtension(p: string): string {
    var n := LowerSuffixLength(p);
    if 0 < n < |p| && p[|p| - n - 1] == '.' then p[|p| - n..] else ""
  }

  /** Below the longest lower-case suffix of length `n` sits a non-letter,
      so a match can start only just before that suffix. */
  lemma ExtMatchPosition(p: string, n: nat, i: nat)
    requires n <= |p| && AllLower(p[|p| - n..]) && (n < |p| ==> !IsLower(p[|p| - n - 1]))
    requires ExtPatternAt(p, i)
    ensures i == |p| - n - 1
  {
    forall j | i + 1 <= j < |p|
      ensures IsLower(p[j])
    {
      assert p[i + 1..][j - i - 1] == p[j];
    }
    forall j | |p| - n <= j < |p|
      ensures IsLower(p[j])
    {
      assert p[|p| - n..][j - (|p| - n)] == p[j];
    }
  }

  /** Any match gives the result as its first group. */
  lemma ExtMatchGroup(p: string, i: nat)
    requires i < |p| && ExtPatternAt(p, i)
    ensures GetFileExtension(p) == p[i + 1..]
  {
    ExtMatchPosition(p, LowerSuffixLength(p), i);
  }

  /** A dot just before a non-empty lower-case suffix starts a match. */
  lemma DotBeforeLowerMatches(p: string, n: nat)
    requires 0 < n < |p| && AllLower(p[|p| - n..]) && p[|p| - n - 1] == '.'
    ensures ExtPatternAt(p, |p| - n - 1)
  {
    assert p[|p| - n - 1 + 1..] == p[|p| - n..];
  }

  /** `getFileExtension` is the first group of the match, or `""` when the
      pattern does not match. */
  lemma ExtensionMatchesRegex(p: string)
    ensures (forall i :: 0 <= i < |p| ==> !ExtPatternAt(p, i)) ==> GetFileExtension(p) == ""
    ensures forall i :: 0 <= i < |p| && ExtPatternAt(p, i) ==> GetFileExtension(p) == p[i + 1..]
  {
    forall i | 0 <= i < |p| && ExtPatternAt(p, i)
      ensures GetFileExtension(p) == p[i + 1..]
    {
      ExtMatchGroup(p, i);
    }
    var n := LowerSuffixLength(p);
    if 0 < n < |p| && p[|p| - n - 1] == '.' {
      DotBeforeLowerMatches(p, n);
    }
  }

  // ---------------------------------------------------------------------
  // isFile: path.match(/[^\/]+\.[^\/]+$/) !== null

  /** `/[^\/]+\.[^\/]+$/` matches starting at `i` with its literal dot at
      `k`. */
  ghost predicate FilePatternAt(p: string, i: nat, k: nat) {
    i < k < |p| - 1 && p[k] == '.' && '/' !in p[i..]
  }

  /** `isFile`: the final segment holds a dot that is neither its first nor
      its last character. */
  function IsFile(p: string): bool {
    var name := p[LastIndexOf(p, '/') + 1..];
    |name| >= 3 && '.' in name[1..|name| - 1]
  }

  /** A match lies inside the final segment, so its dot is an inner
      character of that segment. */
  lemma FileMatchInName(p: string, i: nat, k: nat)
    requires FilePatternAt(p, i, k)
    ensures IsFile(p)
  {
    var start := LastIndexOf(p, '/') + 1;
    LastSlashBefore(p, i);
    var name := p[start..];
    assert name[k - start] == p[k];
    InnerDot(name, k - start);
  }

  lemma LastSlashBefore(p: string, i: nat)
    requires i <= |p| && '/' !in p[i..]
    ensures LastIndexOf(p, '/') < i
  {
    NotInSuffix(p, i, '/');
  }

  lemma InnerDot(name: string, j: nat)
    requires 1 <= j < |name| - 1 && name[j] == '.'
    ensures |name| >= 3 && '.' in name[1..|name| - 1]
  {
    assert name[1..|name| - 1][j - 1] == name[j];
  }

  /** An inner dot of the final segment gives a match. */
  lemma IsFileWitness(p: string)
    requires IsFile(p)
    ensures exists i: nat, k: nat :: FilePatternAt(p, i, k)
  {
    var start := LastIndexOf(p, '/') + 1;
    var name := p[start..];
    var inner := name[1..|name| - 1];
    var m := IndexOf(inner, '.');
    assert p[start + 1 + m] == inner[m];
    AbsentAfterLast(p, '/');
    FileWitnessAt(p, start, start + 1 + m);
  }

  lemma FileWitnessAt(p: string, i: nat, k: nat)
    requires FilePatternAt(p, i, k)
    ensures exists i: nat, k: nat :: FilePatternAt(p, i, k)
  {
  }

  /** `isFile` is whether the pattern matches anywhere. */
  lemma IsFileMatchesRegex(p: string)
    ensures IsFile(p) <==> exists i: nat, k: nat :: FilePatternAt(p, i, k)
  {
    forall i: nat, k: nat | FilePatternAt(p, i, k)
      ensures IsFile(p)
    {
      FileMatchInName(p, i, k);
    }
    if IsFile(p) {
      IsFileWitness(p);
    }
  }

  // ---------------------------------------------------------------------
  // normalizePath

  /** `ds || '/'`: an absent (or empty) separator means `/`. */
  function Separator(ds: Option<char>): char {
    match ds
    case Some(c) => c
    case None => '/'
  }

  /** The text `ds + ds` inserts as a replacement pattern: `$$` stands for
      one `$`, and no other two equal characters are special. */
  function Replacement(ds: char): string {
    if ds == '$' then "$" else [ds, ds]
  }

  /** `s.replace(/\/\\/g, ds + ds)`: each `/\` pair, scanned left to right
      without overlap, becomes the replacement text. */
  function ReplaceSlashBackslash(s: string, ds: char): (r: string)
    ensures !HasPair(s, '/', '\\') ==> r == s
    ensures ds != '$' ==> |r| == |s|
    ensures ds != '$' ==> forall k :: 0 <= k < |s| && r[k] != s[k] ==> r[k] == ds && (s[k] == '/' || s[k] == '\\')
    decreases |s|
  {
    if |s| < 2 then s
    else if s[0] == '/' && s[1] == '\\' then
      var rest := ReplaceSlashBackslash(s[2..], ds);
      Replacement(ds) + rest
    else
      assert !HasPair(s, '/', '\\') ==> !HasPair(s[1..], '/', '\\') by {
        if HasPair(s[1..], '/', '\\') {
          var i :| 0 <= i < |s[1..]| - 1 && s[1..][i] == '/' && s[1..][i + 1] == '\\';
          assert s[i + 1] == '/' && s[i + 2] == '\\';
        }
      }
      var rest := ReplaceSlashBackslash(s[1..], ds);
      assert !HasPair(s, '/', '\\') ==> [s[0]] + s[1..] == s;
      [s[0]] + rest
  }

  /** A `/\\` pair at the front is replaced and the scan resumes after it. */
  lemma ReplaceAtPair(s: string, ds: char)
    requires |s| >= 2 && s[0] == '/' && s[1] == '\\'
    ensures ReplaceSlashBackslash(s, ds) == Replacement(ds) + ReplaceSlashBackslash(s[2..], ds)
  {
  }

  /** Any other first character is kept and the scan resumes after it. */
  lemma ReplaceAtOther(s: string, ds: char)
    requires |s| >= 2 && !(s[0] == '/' && s[1] == '\\')
    ensures ReplaceSlashBackslash(s, ds) == [s[0]] + ReplaceSlashBackslash(s[1..], ds)
  {
  }

  /** Dropping a prefix of the first part of a concatenation. */
  lemma DropFront(a: string, m: string, b: string, n: nat)
    requires n <= |a|
    ensures (a + m + b)[n..] == a[n..] + m + b
  {
    assert (a + m + b)[n..] == (a + m)[n..] + b;
  }

  lemma Regroup(p: string, q: string, m: string, r: string)
    ensures p + (q + m + r) == p + q + m + r
  {
  }

  /** For every separator, `$` included: the replace of a string holding a
      `/\\` pair is the replace of what precedes the pair, the replacement
      text (`$$` stands for a single `$`), and the replace of what follows. */
  lemma {:induction false} ReplaceSlashBackslashSplits(a: string, b: string, ds: char)
    ensures ReplaceSlashBackslash(a + ['/', '\\'] + b, ds) ==
      ReplaceSlashBackslash(a, ds) + (if ds == '$' then "$" else [ds, ds]) + ReplaceSlashBackslash(b, ds)
    decreases |a|
  {
    var s := a + ['/', '\\'] + b;
    var x := Replacement(ds);
    assert x == (if ds == '$' then "$" else [ds, ds]);
    var rb := ReplaceSlashBackslash(b, ds);
    if |a| == 0 {
      assert s == ['/', '\\'] + b;
      ReplaceAtPair(s, ds);
      assert s[2..] == b;
      assert ReplaceSlashBackslash(a, ds) == [];
      assert ReplaceSlashBackslash(s, ds) == ReplaceSlashBackslash(a, ds) + x + rb;
    } else if |a| >= 2 && a[0] == '/' && a[1] == '\\' {
      var t := a[2..];
      assert s[0] == '/' && s[1] == '\\';
      ReplaceAtPair(s, ds);
      ReplaceAtPair(a, ds);
      DropFront(a, ['/', '\\'], b, 2);
      ReplaceSlashBackslashSplits(t, b, ds);
      var rt := ReplaceSlashBackslash(t, ds);
      assert ReplaceSlashBackslash(s, ds) == x + (rt + x + rb);
      assert ReplaceSlashBackslash(a, ds) == x + rt;
      Regroup(x, rt, x, rb);
    } else {
      var t := a[1..];
      assert s[0] == a[0] && s[1] == (if |a| >= 2 then a[1] else '/');
      ReplaceAtOther(s, ds);
      DropFront(a, ['/', '\\'], b, 1);
      ReplaceSlashBackslashSplits(t, b, ds);
      var rt := ReplaceSlashBackslash(t, ds);
      assert ReplaceSlashBackslash(s, ds) == [a[0]] + (rt + x + rb);
      if |a| >= 2 {
        ReplaceAtOther(a, ds);
      } else {
        assert t == [] && a == [a[0]];
      }
      assert ReplaceSlashBackslash(a, ds) == [a[0]] + rt;
      Regroup([a[0]], rt, x, rb);
    }
  }

  /** With `$` as the separator a pair shrinks to one character. */
  lemma DollarSeparatorExample()
    ensures ReplaceSlashBackslash("a/\\b", '$') == "a$b"
  {
    ReplaceSlashBackslashSplits("a", "b", '$');
    assert "a" + ['/', '\\'] + "b" == "a/\\b";
  }

  /** The character at `k` is one half of a `/\` pair. A slash is never a
      backslash, so two pairs never overlap. */
  ghost predicate InSlashBackslash(s: string, k: nat) {
    (k + 1 < |s| && s[k] == '/' && s[k + 1] == '\\') || (0 < k < |s| && s[k] == '\\' && s[k - 1] == '/')
  }

  /** With a separator other than `$`, the replace turns each character of
      a `/\` pair into `ds` and leaves every other character alone. */
  lemma {:induction false} ReplaceSlashBackslashPairs(s: string, ds: char)
    requires ds != '$'
    ensures |ReplaceSlashBackslash(s, ds)| == |s|
    ensures forall k :: 0 <= k < |s| ==>
      ReplaceSlashBackslash(s, ds)[k] == if InSlashBackslash(s, k) then ds else s[k]
    decreases |s|
  {
    var r := ReplaceSlashBackslash(s, ds);
    if |s| < 2 {
    } else if s[0] == '/' && s[1] == '\\' {
      var t := s[2..];
      ReplaceSlashBackslashPairs(t, ds);
      forall k | 0 <= k < |s|
        ensures r[k] == if InSlashBackslash(s, k) then ds else s[k]
      {
        if k >= 2 {
          PairShift(s, 2, k);
        }
      }
    } else {
      var t := s[1..];
      ReplaceSlashBackslashPairs(t, ds);
      forall k | 0 <= k < |s|
        ensures r[k] == if InSlashBackslash(s, k) then ds else s[k]
      {
        if k >= 1 {
          PairShift(s, 1, k);
        }
      }
    }
  }

  /** Past a cut that does not split a pair, pair membership is the same in
      the suffix. */
  lemma PairShift(s: string, j: nat, k: nat)
    requires 1 <= j <= k < |s|
    requires !(s[j - 1] == '/' && s[j] == '\\')
    ensures InSlashBackslash(s, k) <==> InSlashBackslash(s[j..], k - j)
  {
  }

  /** `_trimEnd(s, c)`: `s` without its trailing run of `c`. */
  function TrimEnd(s: string, c: char): (r: string)
    ensures r <= s
    ensures !EndsWithElem(r, c)
    ensures forall k :: |r| <= k < |s| ==> s[k] == c
  {
    if |s| > 0 && s[|s| - 1] == c then TrimEnd(s[..|s| - 1], c) else s
  }

  /** The element of the `_each` loop as written: a `..` that follows a
      named segment pops it, and is then pushed all the same; `.` and empty
      segments (but a leading one) are dropped. */
  function StepAsWritten(parts: seq<string>, part: string): seq<string> {
    var popped := if part == ".." && |parts| > 0 && parts[|parts| - 1] != ".." then parts[..|parts| - 1] else parts;
    if part == "." || (part == "" && |popped| > 0) then popped else popped + [part]
  }

  /** No `.` segment, and no empty segment but possibly the first. */
  ghost predicate Clean(parts: seq<string>) {
    (forall k :: 0 <= k < |parts| ==> parts[k] != ".") && TailNonEmpty(parts)
  }

  /** The loop over all segments. */
  function Collapse(parts: seq<string>, segments: seq<string>): seq<string>
    decreases |segments|
  {
    if |segments| == 0 then parts
    else Collapse(StepAsWritten(parts, segments[0]), segments[1..])
  }

  /** The loop keeps the list clean and holds only segments it started with
      or was given. */
  lemma {:induction false} CollapseKeepsClean(parts: seq<string>, segments: seq<string>)
    ensures Clean(parts) ==> Clean(Collapse(parts, segments))
    ensures forall k :: 0 <= k < |Collapse(parts, segments)| ==>
      Collapse(parts, segments)[k] in parts || Collapse(parts, segments)[k] in segments
    decreases |segments|
  {
    if |segments| > 0 {
      var next := StepAsWritten(parts, segments[0]);
      StepKeepsClean(parts, segments[0]);
      CollapseKeepsClean(next, segments[1..]);
      forall k | 0 <= k < |Collapse(parts, segments)|
        ensures Collapse(parts, segments)[k] in parts || Collapse(parts, segments)[k] in segments
      {
        var x := Collapse(parts, segments)[k];
        assert x in next || x in segments[1..];
        if x in segments[1..] {
          InTail(segments, x);
        }
      }
    }
  }

  /** One step of the loop as written keeps the list clean and adds only
      the segment it is given. */
  lemma StepKeepsClean(parts: seq<string>, part: string)
    ensures Clean(parts) ==> Clean(StepAsWritten(parts, part))
    ensures forall k :: 0 <= k < |StepAsWritten(parts, part)| ==>
      StepAsWritten(parts, part)[k] in parts || StepAsWritten(parts, part)[k] == part
  {
  }

  /** The shape `normalizePath` promises: `.`, or a path with no doubled
      separator, no trailing one, and no `.` segment. */
  ghost predicate Normalized(r: string, ds: char) {
    r == "." || (!HasPair(r, ds, ds) && !EndsWithElem(r, ds) && forall k :: 0 <= k < |Split(r, ds)| ==> Split(r, ds)[k] != ".")
  }

  /** No piece of the split starts with a dot. */
  ghost predicate NoHiddenSegment(parts: seq<string>) {
    forall k :: 0 <= k < |parts| && parts[k] != "" ==> parts[k][0] != '.'
  }

  /** A piece that starts with a dot makes `ds.` occur in `ds + s`. */
  lemma {:induction false} HiddenPieceGivesPair(s: string, d: char, k: nat)
    requires k < |Split(s, d)| && Split(s, d)[k] != "" && Split(s, d)[k][0] == '.'
    ensures HasPair([d] + s, d, '.')
    decreases |s|
  {
    var i := IndexOf(s, d);
    if k == 0 {
      FirstPieceGivesPair(s, d);
    } else {
      PieceOfRest(s, d, k);
      HiddenPieceGivesPair(s[i + 1..], d, k - 1);
      PairAfterFirstSeparator(s, d);
    }
  }

  /** Every piece after the first is a piece of what follows the first
      separator. */
  lemma PieceOfRest(s: string, d: char, k: nat)
    requires 0 < k < |Split(s, d)|
    ensures IndexOf(s, d) < |s|
    ensures k - 1 < |Split(s[IndexOf(s, d) + 1..], d)|
    ensures Split(s[IndexOf(s, d) + 1..], d)[k - 1] == Split(s, d)[k]
  {
    if IndexOf(s, d) < |s| {
      SplitAtFirst(s, d);
    } else {
      assert false;
    }
  }

  /** A first piece that starts with a dot makes `ds.` the start of `ds + s`. */
  lemma FirstPieceGivesPair(s: string, d: char)
    requires Split(s, d)[0] != "" && Split(s, d)[0][0] == '.'
    ensures HasPair([d] + s, d, '.')
  {
    var i := IndexOf(s, d);
    if i < |s| {
      SplitAtFirst(s, d);
      assert s[..i][0] == '.';
    } else {
      assert Split(s, d) == [s];
    }
    assert ([d] + s)[0] == d && ([d] + s)[1] == '.';
  }

  /** A `ds.` in `ds` plus what follows the first separator is one in
      `ds + s`. */
  lemma PairAfterFirstSeparator(s: string, d: char)
    requires IndexOf(s, d) < |s| && HasPair([d] + s[IndexOf(s, d) + 1..], d, '.')
    ensures HasPair([d] + s, d, '.')
  {
    var i := IndexOf(s, d);
    SeparatorSuffix(s, d, i);
    PairInSuffix([d] + s, i + 1, d, '.');
  }

  /** A hidden piece of the tail is one of the list with a piece in front. */
  lemma HiddenInTail(whole: seq<string>, w: string, tail: seq<string>)
    requires whole == [w] + tail && !NoHiddenSegment(tail)
    ensures !NoHiddenSegment(whole)
  {
    var k :| 0 <= k < |tail| && tail[k] != "" && tail[k][0] == '.';
    assert whole[k + 1] == tail[k];
  }

  /** A piece of what follows the first separator is a piece of the whole. */
  lemma HiddenPieceShift(s: string, d: char)
    requires IndexOf(s, d) < |s|
    requires !NoHiddenSegment(Split(s[IndexOf(s, d) + 1..], d))
    ensures !NoHiddenSegment(Split(s, d))
  {
    var i := IndexOf(s, d);
    SplitAtFirst(s, d);
    HiddenInTail(Split(s, d), s[..i], Split(s[i + 1..], d));
  }

  /** A string that starts with a dot has a first piece that does. */
  lemma FirstPieceHidden(s: string, d: char)
    requires d != '.' && |s| > 0 && s[0] == '.'
    ensures !NoHiddenSegment(Split(s, d))
  {
    var i := IndexOf(s, d);
    if i < |s| {
      SplitAtFirst(s, d);
      var first := Split(s, d)[0];
      assert first == s[..i];
      assert |first| == i > 0 && first[0] == '.';
    } else {
      assert Split(s, d) == [s];
      assert Split(s, d)[0][0] == '.';
    }
  }

  /** With a separator other than a dot, `ds.` in `ds + s` marks a piece of
      `s` that starts with a dot. */
  lemma {:induction false} PairGivesHiddenPiece(s: string, d: char)
    requires d != '.' && HasPair([d] + s, d, '.')
    ensures !NoHiddenSegment(Split(s, d))
    decreases |s|
  {
    var ds := [d] + s;
    var j :| 0 <= j < |ds| - 1 && ds[j] == d && ds[j + 1] == '.';
    if j == 0 {
      FirstPieceHidden(s, d);
    } else {
      PairAfterFirstCut(s, d, ds, j);
      PairGivesHiddenPiece(s[IndexOf(s, d) + 1..], d);
      HiddenPieceShift(s, d);
    }
  }

  /** A `ds.` past the front of `ds + s` is one in `ds` plus what follows
      the first separator of `s`. */
  lemma PairAfterFirstCut(s: string, d: char, ds: string, j: nat)
    requires ds == [d] + s && 0 < j < |ds| - 1 && ds[j] == d && ds[j + 1] == '.'
    ensures IndexOf(s, d) < |s|
    ensures HasPair([d] + s[IndexOf(s, d) + 1..], d, '.')
  {
    assert s[j - 1] == d;
    var i := IndexOf(s, d);
    assert i <= j - 1;
    SeparatorSuffix(s, d, i);
    PairToSuffix(ds, i + 1, j, d, '.');
  }

  /** `ds.` occurs in `ds + s` exactly when some piece of `s` between
      separators starts with a dot. */
  lemma DotAfterSeparator(s: string, d: char)
    requires d != '.'
    ensures HasPair([d] + s, d, '.') <==> !NoHiddenSegment(Split(s, d))
  {
    if HasPair([d] + s, d, '.') {
      PairGivesHiddenPiece(s, d);
    }
    if !NoHiddenSegment(Split(s, d)) {
      var k :| 0 <= k < |Split(s, d)| && Split(s, d)[k] != "" && Split(s, d)[k][0] == '.';
      HiddenPieceGivesPair(s, d, k);
    }
  }

  /** What the fast path returns is already normalized. */
  lemma FastPathNormalized(path: string, d: char)
    requires !EndsWithElem(path, d)
    requires !Contains([d] + path, [d, '.']) && !Contains(path, [d, d])
    ensures Normalized(path, d)
  {
    ContainsPair([d] + path, d, '.');
    ContainsPair(path, d, d);
    forall k | 0 <= k < |Split(path, d)|
      ensures Split(path, d)[k] != "."
    {
      if Split(path, d)[k] == "." {
        HiddenPieceGivesPair(path, d, k);
      }
    }
  }

  /** Joining clean separator-free segments gives a normalized path (an
      empty join reads as `.`). */
  lemma JoinNormalized(parts: seq<string>, d: char)
    requires Clean(parts)
    requires forall k :: 0 <= k < |parts| ==> d !in parts[k]
    ensures var joined := Join(parts, d); Normalized(if joined == "" then "." else joined, d)
  {
    var joined := Join(parts, d);
    if joined != "" && |parts| >= 1 {
      SplitJoin(parts, d);
      SplitTailNonEmpty(joined, d);
    }
  }

  /** `normalizePath(path, ds)` as written: `/\` pairs become `ds ds`, the
      trailing separators go, a path without `ds.` and `ds ds` is returned
      as it is, and otherwise its segments are collapsed and re-joined. */
  function NormalizePath(p: string, ds: Option<char>): (r: string)
    ensures Normalized(r, Separator(ds))
  {
    var d := Separator(ds);
    var path := TrimEnd(ReplaceSlashBackslash(p, d), d);
    if !Contains([d] + path, [d, '.']) && !Contains(path, [d, d]) then
      FastPathNormalized(path, d);
      path
    else
      var segments := Split(path, d);
      var parts := Collapse([], segments);
      CollapseKeepsClean([], segments);
      JoinNormalized(parts, d);
      var joined := Join(parts, d);
      if joined == "" then "." else joined
  }

  /** The fast path: a path with no `/\` pair which, once its trailing
      separators are gone, has no doubled separator and no segment starting
      with a dot, comes back with only its trailing separators removed. */
  lemma {:induction false} PlainPathUnchanged(p: string, ds: char)
    requires ds != '.'
    requires !HasPair(p, '/', '\\') && !HasPair(TrimEnd(p, ds), ds, ds)
    requires NoHiddenSegment(Split(TrimEnd(p, ds), ds))
    ensures NormalizePath(p, Some(ds)) == TrimEnd(p, ds)
  {
    assert ReplaceSlashBackslash(p, ds) == p;
    var path := TrimEnd(p, ds);
    DotAfterSeparator(path, ds);
    ContainsPair([ds] + path, ds, '.');
    ContainsPair(path, ds, ds);
  }

  // ---------------------------------------------------------------------
  // The behaviour the comment above normalizePath describes

  /** The documented conversion: every `/` and `\` becomes `ds`. */
  function TranslateSeparators(s: string, ds: char): (r: string)
    ensures |r| == |s|
    ensures forall k :: 0 <= k < |r| && (r[k] == '/' || r[k] == '\\') ==> r[k] == ds
    ensures forall k :: 0 <= k < |s| && s[k] != '/' && s[k] != '\\' ==> r[k] == s[k]
    ensures forall k :: 0 <= k < |s| && (s[k] == '/' || s[k] == '\\') ==> r[k] == ds
  {
    seq(|s|, k requires 0 <= k < |s| => if s[k] == '/' || s[k] == '\\' then ds else s[k])
  }

  /** The loop element with the `else` that skips the push after a pop. */
  function StepIntended(parts: seq<string>, part: string): seq<string> {
    if part == ".." && |parts| > 0 && parts[|parts| - 1] != ".." then parts[..|parts| - 1]
    else if part == "." || (part == "" && |parts| > 0) then parts
    else parts + [part]
  }

  /** Every `..` comes before every other segment. */
  ghost predicate ParentsLead(parts: seq<string>) {
    forall i, j :: 0 <= i < j < |parts| && parts[j] == ".." ==> parts[i] == ".."
  }

  function CollapseIntended(parts: seq<string>, segments: seq<string>): seq<string>
    decreases |segments|
  {
    if |segments| == 0 then parts
    else CollapseIntended(StepIntended(parts, segments[0]), segments[1..])
  }

  /** The corrected loop keeps the list clean, keeps every `..` in front,
      and holds only segments it started with or was given. */
  lemma {:induction false} CollapseIntendedKeepsShape(parts: seq<string>, segments: seq<string>)
    ensures Clean(parts) ==> Clean(CollapseIntended(parts, segments))
    ensures ParentsLead(parts) ==> ParentsLead(CollapseIntended(parts, segments))
    ensures forall k :: 0 <= k < |CollapseIntended(parts, segments)| ==>
      CollapseIntended(parts, segments)[k] in parts || CollapseIntended(parts, segments)[k] in segments
    decreases |segments|
  {
    if |segments| > 0 {
      var next := StepIntended(parts, segments[0]);
      StepIntendedKeepsOrder(parts, segments[0]);
      CollapseIntendedKeepsShape(next, segments[1..]);
      forall k | 0 <= k < |CollapseIntended(parts, segments)|
        ensures CollapseIntended(parts, segments)[k] in parts || CollapseIntended(parts, segments)[k] in segments
      {
        var x := CollapseIntended(parts, segments)[k];
        assert x in next || x in segments[1..];
        if x in segments[1..] {
          InTail(segments, x);
        }
      }
    }
  }

  /** A `..` right after a named segment cancels it: the corrected loop
      goes on from the list it had before both. */
  lemma ParentCancels(parts: seq<string>, name: string, rest: seq<string>)
    requires name != ".."
    ensures CollapseIntended(parts + [name], [".."] + rest) == CollapseIntended(parts, rest)
  {
    assert (parts + [name])[..|parts|] == parts;
    assert ([".."] + rest)[1..] == rest;
  }

  /** The pieces that are not empty, in their order. */
  function NonEmptyPieces(segments: seq<string>): (r: seq<string>)
    ensures forall k :: 0 <= k < |r| ==> r[k] != "" && r[k] in segments
    decreases |segments|
  {
    if |segments| == 0 then []
    else if segments[0] == "" then NonEmptyPieces(segments[1..])
    else [segments[0]] + NonEmptyPieces(segments[1..])
  }

  /** Without `.` and `..` pieces the corrected loop only drops empty
      pieces: a non-empty list gains all the others, in order. */
  lemma {:induction false} PlainSegmentsKept(parts: seq<string>, segments: seq<string>)
    requires |parts| > 0
    requires forall k :: 0 <= k < |segments| ==> segments[k] != "." && segments[k] != ".."
    ensures CollapseIntended(parts, segments) == parts + NonEmptyPieces(segments)
    decreases |segments|
  {
    if |segments| > 0 {
      var x := segments[0];
      var next := StepIntended(parts, x);
      var kept := NonEmptyPieces(segments[1..]);
      assert CollapseIntended(parts, segments) == CollapseIntended(next, segments[1..]);
      PlainSegmentsKept(next, segments[1..]);
      if x == "" {
        assert next == parts && NonEmptyPieces(segments) == kept;
      } else {
        assert next == parts + [x] && NonEmptyPieces(segments) == [x] + kept;
        assert (parts + [x]) + kept == parts + ([x] + kept);
      }
    }
  }

  /** From the empty list: a leading empty piece (an absolute path) is
      kept once, and after it only the non-empty pieces, in order, so runs
      of separators collapse into one. */
  lemma PlainPathPieces(segments: seq<string>)
    requires |segments| > 0
    requires forall k :: 0 <= k < |segments| ==> segments[k] != "." && segments[k] != ".."
    ensures CollapseIntended([], segments) == (if segments[0] == "" then [""] else []) + NonEmptyPieces(segments)
  {
    var first := StepIntended([], segments[0]);
    assert first == [segments[0]];
    assert CollapseIntended([], segments) == CollapseIntended(first, segments[1..]);
    PlainSegmentsKept(first, segments[1..]);
  }

  /** One step of the corrected loop keeps the list clean and every `..`
      in front, and adds only the segment it is given. */
  lemma StepIntendedKeepsOrder(parts: seq<string>, part: string)
    ensures Clean(parts) ==> Clean(StepIntended(parts, part))
    ensures ParentsLead(parts) ==> ParentsLead(StepIntended(parts, part))
    ensures forall k :: 0 <= k < |StepIntended(parts, part)| ==>
      StepIntended(parts, part)[k] in parts || StepIntended(parts, part)[k] == part
  {
    var next := StepIntended(parts, part);
    if ParentsLead(parts) && part == ".." && next == parts + [".."] && |parts| > 0 {
      assert parts[|parts| - 1] == "..";
    }
  }

  /** No slash or backslash other than the separator. */
  ghost predicate OnlySeparator(s: string, ds: char) {
    forall k :: 0 <= k < |s| && (s[k] == '/' || s[k] == '\\') ==> s[k] == ds
  }

  lemma {:induction false} SplitKeepsOnlySeparator(s: string, d: char)
    requires OnlySeparator(s, d)
    ensures forall k :: 0 <= k < |Split(s, d)| ==> OnlySeparator(Split(s, d)[k], d)
    decreases |s|
  {
    var i := IndexOf(s, d);
    if i < |s| {
      SplitAtFirst(s, d);
      OnlySeparatorSlice(s, d, 0, i);
      OnlySeparatorSlice(s, d, i + 1, |s|);
      assert s[0..i] == s[..i] && s[i + 1..|s|] == s[i + 1..];
      SplitKeepsOnlySeparator(s[i + 1..], d);
      OnlySeparatorCons(s[..i], Split(s[i + 1..], d), d);
    } else {
      assert Split(s, d) == [s];
    }
  }

  lemma OnlySeparatorSlice(s: string, d: char, a: nat, b: nat)
    requires OnlySeparator(s, d) && a <= b <= |s|
    ensures OnlySeparator(s[a..b], d)
  {
    forall k | 0 <= k < b - a && (s[a..b][k] == '/' || s[a..b][k] == '\\')
      ensures s[a..b][k] == d
    {
      assert s[a..b][k] == s[a + k];
    }
  }

  lemma OnlySeparatorCons(first: string, rest: seq<string>, d: char)
    requires OnlySeparator(first, d)
    requires forall k :: 0 <= k < |rest| ==> OnlySeparator(rest[k], d)
    ensures forall k :: 0 <= k < |[first] + rest| ==> OnlySeparator(([first] + rest)[k], d)
  {
    forall k | 0 <= k < |[first] + rest|
      ensures OnlySeparator(([first] + rest)[k], d)
    {
      if k > 0 {
        assert ([first] + rest)[k] == rest[k - 1];
      }
    }
  }

  lemma {:induction false} JoinKeepsOnlySeparator(parts: seq<string>, d: char)
    requires forall k :: 0 <= k < |parts| ==> OnlySeparator(parts[k], d)
    ensures OnlySeparator(Join(parts, d), d)
    decreases |parts|
  {
    if |parts| > 1 {
      JoinKeepsOnlySeparator(parts[1..], d);
      var tail := Join(parts[1..], d);
      var all := parts[0] + [d] + tail;
      forall k | 0 <= k < |all| && (all[k] == '/' || all[k] == '\\')
        ensures all[k] == d
      {
        if k < |parts[0]| {
          assert all[k] == parts[0][k];
        } else if k > |parts[0]| {
          assert all[k] == tail[k - |parts[0]| - 1];
        }
      }
    }
  }

  /** The shape the corrected function promises. */
  ghost predicate IntendedShape(r: string, d: char) {
    Normalized(r, d) && OnlySeparator(r, d) && (r != "." ==> ParentsLead(Split(r, d)))
  }

  /** After translating and trimming, the separator is the only slash or
      backslash left. */
  lemma TranslatedOnlySeparator(p: string, d: char)
    ensures OnlySeparator(TrimEnd(TranslateSeparators(p, d), d), d)
  {
    var t := TranslateSeparators(p, d);
    var path := TrimEnd(t, d);
    forall k | 0 <= k < |path| && (path[k] == '/' || path[k] == '\\')
      ensures path[k] == d
    {
      assert path[k] == t[k];
    }
  }

  /** The fast path of the corrected function has the promised shape. */
  lemma FastPathIntended(path: string, d: char)
    requires OnlySeparator(path, d) && !EndsWithElem(path, d)
    requires !Contains([d] + path, [d, '.']) && !Contains(path, [d, d])
    ensures IntendedShape(path, d)
  {
    FastPathNormalized(path, d);
    ContainsPair([d] + path, d, '.');
    forall j | 0 <= j < |Split(path, d)|
      ensures Split(path, d)[j] != ".."
    {
      if Split(path, d)[j] == ".." {
        HiddenPieceGivesPair(path, d, j);
      }
    }
  }

  /** The slow path of the corrected function has the promised shape. */
  lemma SlowPathIntended(path: string, d: char)
    requires OnlySeparator(path, d)
    ensures var joined := Join(CollapseIntended([], Split(path, d)), d);
      IntendedShape(if joined == "" then "." else joined, d)
  {
    var segments := Split(path, d);
    JoinedShape(path, d, segments, CollapseIntended([], segments));
  }

  lemma JoinedShape(path: string, d: char, segments: seq<string>, parts: seq<string>)
    requires OnlySeparator(path, d) && segments == Split(path, d) && parts == CollapseIntended([], segments)
    ensures var joined := Join(parts, d); IntendedShape(if joined == "" then "." else joined, d)
  {
    CollapseIntendedKeepsShape([], segments);
    JoinNormalized(parts, d);
    SplitKeepsOnlySeparator(path, d);
    JoinKeepsOnlySeparator(parts, d);
    var joined := Join(parts, d);
    if joined != "" {
      SplitJoin(parts, d);
    }
  }

  /** `normalizePath` as its comment describes it: every slash and
      backslash becomes the separator and a `..` removes the segment before
      it. */
  function NormalizePathIntended(p: string, ds: Option<char>): (r: string)
    ensures Normalized(r, Separator(ds))
    ensures OnlySeparator(r, Separator(ds))
    ensures r != "." ==> ParentsLead(Split(r, Separator(ds)))
  {
    var d := Separator(ds);
    var path := TrimEnd(TranslateSeparators(p, d), d);
    TranslatedOnlySeparator(p, d);
    if !Contains([d] + path, [d, '.']) && !Contains(path, [d, d]) then
      FastPathIntended(path, d);
      path
    else
      SlowPathIntended(path, d);
      var joined := Join(CollapseIntended([], Split(path, d)), d);
      if joined == "" then "." else joined
  }

  // ---------------------------------------------------------------------
  // Properties

  /** Without line breaks, `getFileName` is the piece after the last slash. */
  lemma {:induction false} FileNameIsLastPiece(p: string)
    requires NoLineTerminator(p) && IsSegment(Split(p, '/')[|Split(p, '/')| - 1])
    ensures GetFileName(p) == Split(p, '/')[|Split(p, '/')| - 1]
  {
    JoinSplit(p, '/');
    NameIsLastPart(p, Split(p, '/'));
  }

  /** `FileNameIsLastPiece` for any slash-free parts that join to `p`. */
  lemma NameIsLastPart(p: string, parts: seq<string>)
    requires NoLineTerminator(p) && |parts| >= 1 && Join(parts, '/') == p
    requires forall k :: 0 <= k < |parts| ==> '/' !in parts[k]
    requires IsSegment(parts[|parts| - 1])
    ensures GetFileName(p) == parts[|parts| - 1]
  {
    LastPartOfJoin(parts, '/', p);
    NameIsNonEmptyTail(p, parts[|parts| - 1]);
  }

  lemma NameIsNonEmptyTail(p: string, piece: string)
    requires NoLineTerminator(p) && |piece| > 0 && piece == p[LastIndexOf(p, '/') + 1..]
    ensures GetFileName(p) == piece
  {
    NameAfterLastSlash(p);
  }

  /** A join ends with its last part, right after a separator when there
      is more than one part. */
  lemma {:induction false} JoinEndsWithLast(parts: seq<string>, d: char)
    requires |parts| >= 1
    ensures var j := Join(parts, d); var last := parts[|parts| - 1];
      && |last| <= |j| && j[|j| - |last|..] == last
      && (|parts| > 1 ==> |last| < |j| && j[|j| - |last| - 1] == d)
    decreases |parts|
  {
    if |parts| > 1 {
      JoinEndsWithLast(parts[1..], d);
      var tail := Join(parts[1..], d);
      var j := parts[0] + [d] + tail;
      var last := parts[|parts| - 1];
      assert j[|j| - |last|..] == tail[|tail| - |last|..];
      if |parts| == 2 {
        assert j[|j| - |last| - 1] == d;
      } else {
        assert j[|j| - |last| - 1] == tail[|tail| - |last| - 1];
      }
    }
  }

  /** The last piece of a split is what follows the last separator. */
  lemma {:induction false} LastPiece(s: string, d: char)
    ensures Split(s, d)[|Split(s, d)| - 1] == s[LastIndexOf(s, d) + 1..]
  {
    var parts := Split(s, d);
    assert Join(parts, d) == s by {
      JoinSplit(s, d);
    }
    LastPartOfJoin(parts, d, s);
  }

  /** `LastPiece` for any separator-free parts that join to `s`. */
  lemma LastPartOfJoin(parts: seq<string>, d: char, s: string)
    requires |parts| >= 1 && Join(parts, d) == s
    requires forall k :: 0 <= k < |parts| ==> d !in parts[k]
    ensures parts[|parts| - 1] == s[LastIndexOf(s, d) + 1..]
  {
    JoinEndsWithLast(parts, d);
    var last := parts[|parts| - 1];
    var q := |s| - |last| - 1;
    assert s[q + 1..] == last;
    LastIndexOfUnique(s, d, q);
  }

  /** Without line breaks the name is everything after the last slash. */
  lemma NameAfterLastSlash(p: string)
    requires NoLineTerminator(p)
    ensures LastIndexOf(p, '/') < |p| - 1 ==> GetFileName(p) == p[LastIndexOf(p, '/') + 1..]
  {
    var last := LastIndexOf(p, '/');
    if 0 <= last < |p| - 1 {
      LineStartOfPlain(p, last);
      assert p[..0] + p[last + 1..] == p[last + 1..];
    }
  }

  /** Without line breaks a path that does not end in a slash splits into
      directory, slash and name. */
  lemma DirectoryAndName(p: string)
    requires NoLineTerminator(p) && |p| > 0 && p[|p| - 1] != '/'
    ensures '/' in p ==> GetFileDirectory(p) + "/" + GetFileName(p) == p
    ensures '/' !in p ==> GetFileDirectory(p) == "" && GetFileName(p) == p
  {
    var last := LastIndexOf(p, '/');
    NameAfterLastSlash(p);
    if last >= 0 {
      CutAt(p, last);
    }
  }

  /** Only a lower-case ASCII extension is recognised. */
  lemma ExtensionExamples()
    ensures GetFileExtension("archive.tar.gz") == "gz"
    ensures GetFileExtension("photo.JPG") == ""
    ensures GetFileExtension("README") == ""
  {
    ExtensionMatchesRegex("archive.tar.gz");
    ExtensionMatchesRegex("photo.JPG");
    ExtensionMatchesRegex("README");
    assert ExtPatternAt("archive.tar.gz", 11);
    assert "archive.tar.gz"[12..] == "gz";
    assert !ExtPatternAt("archive.tar.gz", 11 - 4);
    forall i | 0 <= i < |"photo.JPG"|
      ensures !ExtPatternAt("photo.JPG", i)
    {
      assert "photo.JPG"[8] == 'G';
    }
  }

  /** A line break before the last slash keeps the text before it in
      front of the name. */
  lemma FileNameLineBreak()
    ensures GetFileName("a/b\nc/d") == "a/b\nd"
  {
    assert LastIndexOf("a/b\nc/d", '/') == 5;
    assert "a/b\nc/d"[..5] == "a/b\nc";
    assert LineStart("a/b\nc") == 4;
  }

  /** `a.b` in the final segment is a file, a dotfile or a directory part is
      not. */
  lemma IsFileExamples()
    ensures IsFile("d/f.js")
    ensures !IsFile("d/.rc")
  {
    assert LastIndexOf("d/f.js", '/') == 1;
    assert "d/f.js"[2..] == "f.js";
    assert "f.js"[1..3] == ".j";
    assert LastIndexOf("d/.rc", '/') == 1;
    assert "d/.rc"[2..] == ".rc";
    assert ".rc"[1..2] == "r";
  }

  /** A string without backslashes holds no `/\` pair. */
  lemma NoBackslashNoPair(s: string)
    requires '\\' !in s
    ensures !HasPair(s, '/', '\\')
  {
  }

  /** On the slow path the result is the join of the collapsed segments. */
  lemma {:induction false} SlowPathAsWritten(p: string, ds: Option<char>, segments: seq<string>)
    requires !HasPair(p, '/', '\\') && !EndsWithElem(p, Separator(ds))
    requires |segments| >= 1 && forall k :: 0 <= k < |segments| ==> Separator(ds) !in segments[k]
    requires Join(segments, Separator(ds)) == p
    requires HasPair([Separator(ds)] + p, Separator(ds), '.') || HasPair(p, Separator(ds), Separator(ds))
    ensures NormalizePath(p, ds) == var j := Join(Collapse([], segments), Separator(ds)); if j == "" then "." else j
  {
    var d := Separator(ds);
    assert ReplaceSlashBackslash(p, d) == p;
    assert TrimEnd(p, d) == p;
    SplitJoin(segments, d);
    ContainsPair([d] + p, d, '.');
    ContainsPair(p, d, d);
  }

  /** The loop as written on the segments of `/a/./b/../c`. */
  lemma AsWrittenParentCollapse()
    ensures Collapse([], ["", "a", ".", "b", "..", "c"]) == ["", "a", "..", "c"]
  {
    CollapseSix([], "", "a", ".", "b", "..", "c");
    assert StepAsWritten([], "") == [""];
    assert StepAsWritten([""], "a") == ["", "a"];
    assert StepAsWritten(["", "a"], ".") == ["", "a"];
    CollapseThree(["", "a"], "b", "..", "c");
    assert StepAsWritten(["", "a"], "b") == ["", "a", "b"];
    assert StepAsWritten(["", "a", "b"], "..") == ["", "a", ".."];
  }

  /** Three steps of the loop as written. */
  lemma CollapseThree(parts: seq<string>, a: string, b: string, c: string)
    ensures Collapse(parts, [a, b, c]) == StepAsWritten(StepAsWritten(StepAsWritten(parts, a), b), c)
  {
    var p1 := StepAsWritten(parts, a);
    var p2 := StepAsWritten(p1, b);
    assert [a, b, c][1..] == [b, c];
    assert Collapse(parts, [a, b, c]) == Collapse(p1, [b, c]);
    assert [b, c][1..] == [c];
    assert Collapse(p1, [b, c]) == Collapse(p2, [c]);
  }

  /** Six steps of the loop as written are three and then three more. */
  lemma CollapseSix(parts: seq<string>, a: string, b: string, c: string, d: string, e: string, f: string)
    ensures Collapse(parts, [a, b, c, d, e, f]) == Collapse(StepAsWritten(StepAsWritten(StepAsWritten(parts, a), b), c), [d, e, f])
  {
    var p1 := StepAsWritten(parts, a);
    var p2 := StepAsWritten(p1, b);
    assert [a, b, c, d, e, f][1..] == [b, c, d, e, f];
    assert Collapse(parts, [a, b, c, d, e, f]) == Collapse(p1, [b, c, d, e, f]);
    assert [b, c, d, e, f][1..] == [c, d, e, f];
    assert Collapse(p1, [b, c, d, e, f]) == Collapse(p2, [c, d, e, f]);
    assert [c, d, e, f][1..] == [d, e, f];
  }

  /** The `..` that pops a segment is still pushed: the parent reference
      stays in the result. */
  lemma ParentNotResolved()
    ensures NormalizePath("/a/./b/../c", None) == "/a/../c"
  {
    AsWrittenParentCollapse();
    ParentExampleJoin();
    ParentExamplePath();
    SlowPathAsWritten("/a/./b/../c", None, ["", "a", ".", "b", "..", "c"]);
  }

  /** The loop as written on `a/b/../..` and on `a/../..`. */
  lemma ParentPairCollapse()
    ensures Collapse([], ["a", "b", "..", ".."]) == ["a", "..", ".."]
    ensures Collapse([], ["a", "..", ".."]) == ["..", ".."]
  {
    assert ["a", "b", "..", ".."][1..] == ["b", "..", ".."];
    assert StepAsWritten([], "a") == ["a"];
    CollapseThree(["a"], "b", "..", "..");
    assert StepAsWritten(["a"], "b") == ["a", "b"];
    assert StepAsWritten(["a", "b"], "..") == ["a", ".."];
    CollapseThree([], "a", "..", "..");
    assert StepAsWritten(["a"], "..") == [".."];
  }

  /** The joins of `a/b/../..`, `a/../..` and `../..`. */
  lemma ParentPairJoin()
    ensures Join(["a", "b", "..", ".."], '/') == "a/b/../.."
    ensures Join(["a", "..", ".."], '/') == "a/../.."
    ensures Join(["..", ".."], '/') == "../.."
  {
  }

  /** No segment of `a/b/../..` or `a/../..` holds a slash. */
  lemma ParentPairSegments()
    ensures forall k :: 0 <= k < 4 ==> '/' !in ["a", "b", "..", ".."][k]
    ensures forall k :: 0 <= k < 3 ==> '/' !in ["a", "..", ".."][k]
  {
  }

  /** `a/b/../..` and `a/../..` hold no `/\\` pair and take the slow path. */
  lemma ParentPairPaths()
    ensures !HasPair("a/b/../..", '/', '\\') && HasPair(['/'] + "a/b/../..", '/', '.')
    ensures !HasPair("a/../..", '/', '\\') && HasPair(['/'] + "a/../..", '/', '.')
  {
    NoBackslashNoPair("a/b/../..");
    NoBackslashNoPair("a/../..");
    assert (['/'] + "a/b/../..")[4] == '/' && (['/'] + "a/b/../..")[5] == '.';
    assert (['/'] + "a/../..")[2] == '/' && (['/'] + "a/../..")[3] == '.';
  }

  /** A `..` that follows another `..` stays: `a/b/../..` keeps both. */
  lemma ParentAfterParentKept()
    ensures NormalizePath("a/b/../..", None) == "a/../.."
  {
    ParentPairCollapse();
    ParentPairJoin();
    ParentPairSegments();
    ParentPairPaths();
    SlowPathAsWritten("a/b/../..", None, ["a", "b", "..", ".."]);
  }

  /** Normalizing is not idempotent: a second pass resolves a `..` the
      first one kept. */
  lemma NotIdempotent()
    ensures NormalizePath(NormalizePath("a/b/../..", None), None) == "../.."
    ensures NormalizePath("a/b/../..", None) != "../.."
  {
    ParentPairCollapse();
    ParentPairJoin();
    ParentPairSegments();
    ParentPairPaths();
    SlowPathAsWritten("a/../..", None, ["a", "..", ".."]);
    ParentAfterParentKept();
  }

  /** `\\a/b\\c` has one slash, followed by a letter, and splits into
      `\\a` and `b\\c`. */
  lemma BackslashPathFacts()
    ensures !HasPair("\\a/b\\c", '/', '\\') && !HasPair("\\a/b\\c", '/', '/')
    ensures Join(["\\a", "b\\c"], '/') == "\\a/b\\c"
    ensures forall k :: 0 <= k < 2 ==> '/' !in ["\\a", "b\\c"][k]
    ensures NoHiddenSegment(["\\a", "b\\c"])
  {
    var p := "\\a/b\\c";
    forall i | 0 <= i < |p| - 1 && p[i] == '/'
      ensures i == 2 && p[i + 1] == 'b'
    {
    }
  }

  /** Backslashes that do not follow a slash are left alone. */
  lemma BackslashesKept()
    ensures NormalizePath("\\a/b\\c", None) == "\\a/b\\c"
  {
    BackslashPathFacts();
    SplitJoin(["\\a", "b\\c"], '/');
    assert TrimEnd("\\a/b\\c", '/') == "\\a/b\\c";
    PlainPathUnchanged("\\a/b\\c", '/');
    DefaultSeparator("\\a/b\\c");
  }

  /** No separator is the same as `/`. */
  lemma DefaultSeparator(p: string)
    ensures NormalizePath(p, None) == NormalizePath(p, Some('/'))
  {
  }

  /** On a slow path of the corrected function the result is the join of
      the collapsed segments. */
  lemma SlowPathIntendedResult(p: string, ds: Option<char>, segments: seq<string>)
    requires TranslateSeparators(p, Separator(ds)) == p && !EndsWithElem(p, Separator(ds))
    requires |segments| >= 1 && forall k :: 0 <= k < |segments| ==> Separator(ds) !in segments[k]
    requires Join(segments, Separator(ds)) == p
    requires HasPair([Separator(ds)] + p, Separator(ds), '.') || HasPair(p, Separator(ds), Separator(ds))
    ensures NormalizePathIntended(p, ds) == var j := Join(CollapseIntended([], segments), Separator(ds)); if j == "" then "." else j
  {
    var d := Separator(ds);
    assert TrimEnd(p, d) == p;
    SplitJoin(segments, d);
    ContainsPair([d] + p, d, '.');
    ContainsPair(p, d, d);
  }

  /** Without backslashes, translating to `/` changes nothing. */
  lemma NoBackslashTranslated(s: string)
    requires '\\' !in s
    ensures TranslateSeparators(s, '/') == s
  {
  }

  /** The corrected loop on the segments of `/a/./b/../c`. */
  lemma ParentExampleCollapse()
    ensures CollapseIntended([], ["", "a", ".", "b", "..", "c"]) == ["", "a", "c"]
  {
    CollapseIntendedSix([], "", "a", ".", "b", "..", "c");
    assert StepIntended([], "") == [""];
    assert StepIntended([""], "a") == ["", "a"];
    assert StepIntended(["", "a"], ".") == ["", "a"];
    CollapseIntendedThree(["", "a"], "b", "..", "c");
    assert StepIntended(["", "a"], "b") == ["", "a", "b"];
    assert StepIntended(["", "a", "b"], "..") == ["", "a"];
  }

  /** Three steps of the corrected loop. */
  lemma CollapseIntendedThree(parts: seq<string>, a: string, b: string, c: string)
    ensures CollapseIntended(parts, [a, b, c]) == StepIntended(StepIntended(StepIntended(parts, a), b), c)
  {
    var p1 := StepIntended(parts, a);
    var p2 := StepIntended(p1, b);
    assert [a, b, c][1..] == [b, c];
    assert CollapseIntended(parts, [a, b, c]) == CollapseIntended(p1, [b, c]);
    assert [b, c][1..] == [c];
    assert CollapseIntended(p1, [b, c]) == CollapseIntended(p2, [c]);
  }

  /** Six steps of the corrected loop are three and then three more. */
  lemma CollapseIntendedSix(parts: seq<string>, a: string, b: string, c: string, d: string, e: string, f: string)
    ensures CollapseIntended(parts, [a, b, c, d, e, f]) ==
      CollapseIntended(StepIntended(StepIntended(StepIntended(parts, a), b), c), [d, e, f])
  {
    var p1 := StepIntended(parts, a);
    var p2 := StepIntended(p1, b);
    assert [a, b, c, d, e, f][1..] == [b, c, d, e, f];
    assert CollapseIntended(parts, [a, b, c, d, e, f]) == CollapseIntended(p1, [b, c, d, e, f]);
    assert [b, c, d, e, f][1..] == [c, d, e, f];
    assert CollapseIntended(p1, [b, c, d, e, f]) == CollapseIntended(p2, [c, d, e, f]);
    assert [c, d, e, f][1..] == [d, e, f];
  }

  /** `/a/./b/../c` holds no backslash, takes the slow path, and none of
      its segments holds a slash. */
  lemma ParentExamplePath()
    ensures !HasPair("/a/./b/../c", '/', '\\') && TranslateSeparators("/a/./b/../c", '/') == "/a/./b/../c"
    ensures HasPair(['/'] + "/a/./b/../c", '/', '.')
    ensures forall k :: 0 <= k < 6 ==> '/' !in ["", "a", ".", "b", "..", "c"][k]
  {
    NoBackslashNoPair("/a/./b/../c");
    NoBackslashTranslated("/a/./b/../c");
    assert (['/'] + "/a/./b/../c")[3] == '/' && (['/'] + "/a/./b/../c")[4] == '.';
  }

  /** The segments of `/a/./b/../c` and of the result, joined. */
  lemma ParentExampleJoin()
    ensures Join(["", "a", ".", "b", "..", "c"], '/') == "/a/./b/../c"
    ensures Join(["", "a", "c"], '/') == "/a/c"
    ensures Join(["", "a", "..", "c"], '/') == "/a/../c"
  {
    ParentExampleJoinTail();
    ParentExampleJoinMiddle();
    assert Join(["a", "c"], '/') == "a/c";
  }

  lemma ParentExampleJoinMiddle()
    ensures Join(["a", ".", "b", "..", "c"], '/') == "a/./b/../c"
    ensures Join(["a", "..", "c"], '/') == "a/../c"
  {
    ParentExampleJoinTail();
    assert Join([".", "b", "..", "c"], '/') == "./b/../c";
  }

  lemma ParentExampleJoinTail()
    ensures Join(["b", "..", "c"], '/') == "b/../c"
    ensures Join(["..", "c"], '/') == "../c"
  {
  }

  /** With the `else` restored, a `..` removes the segment before it, as
      the comment's example says. */
  lemma DocumentedParentExample()
    ensures NormalizePathIntended("/a/./b/../c", None) == "/a/c"
  {
    ParentExampleCollapse();
    ParentExampleJoin();
    ParentExamplePath();
    SlowPathIntendedResult("/a/./b/../c", None, ["", "a", ".", "b", "..", "c"]);
  }

  /** With every slash and backslash translated, the comment's separator
      example holds. */
  lemma DocumentedSeparatorExample()
    ensures NormalizePathIntended("\\a/b\\c", None) == "/a/b/c"
  {
    var q := "\\a/b\\c";
    var r := "/a/b/c";
    assert TranslateSeparators(q, '/') == r;
    assert !HasPair(['/'] + r, '/', '.') by {
      forall i | 0 <= i < |r|
        ensures r[i] != '.'
      {
      }
    }
    assert !HasPair(r, '/', '/') by {
      forall i | 0 <= i < |r| - 1 && r[i] == '/'
        ensures r[i + 1] != '/'
      {
      }
    }
    FastPathIntendedResult(q, None, r);
  }

  /** `/a/b/c/` holds no `/\\` pair, and without its trailing slash it has
      no doubled slash and no dot. */
  lemma TrailingPathFacts()
    ensures !HasPair("/a/b/c/", '/', '\\') && TrimEnd("/a/b/c/", '/') == "/a/b/c"
    ensures !HasPair("/a/b/c", '/', '/') && !HasPair(['/'] + "/a/b/c", '/', '.')
  {
    NoBackslashNoPair("/a/b/c/");
    assert TrimEnd("/a/b/c/", '/') == TrimEnd("/a/b/c", '/');
    var r := "/a/b/c";
    forall i | 0 <= i < |r| - 1 && r[i] == '/'
      ensures r[i + 1] != '/'
    {
    }
  }

  /** The example of the comment's trailing-separator rule: `/a/b/c/`
      gives `/a/b/c`. */
  lemma DocumentedTrailingExample()
    ensures NormalizePath("/a/b/c/", None) == "/a/b/c"
  {
    TrailingPathFacts();
    DotAfterSeparator("/a/b/c", '/');
    PlainPathUnchanged("/a/b/c/", '/');
    DefaultSeparator("/a/b/c/");
  }

  /** On the fast path of the corrected function the result is the
      translated path. */
  lemma FastPathIntendedResult(p: string, ds: Option<char>, path: string)
    requires path == TranslateSeparators(p, Separator(ds)) && !EndsWithElem(path, Separator(ds))
    requires !HasPair([Separator(ds)] + path, Separator(ds), '.') && !HasPair(path, Separator(ds), Separator(ds))
    ensures NormalizePathIntended(p, ds) == path
  {
    var d := Separator(ds);
    assert TrimEnd(path, d) == path;
    ContainsPair([d] + path, d, '.');
    ContainsPair(path, d, d);
  }
}

=== FILE: json.dfy ===
/** JavaScript values as JSON carries them, and the engine services the
    client relies on (`JSON.stringify`, `JSON.parse`, property-key coercion),
    kept abstract: a `Runtime` bundles them and `Lawful` states what the
    model needs of them. */
module Json {
  import opened Wrappers

  /** A JSON-representable JavaScript value; numbers are integers here. */
  datatype Json =
    | JNull
    | JBool(b: bool)
    | JNum(n: int)
    | JStr(s: string)
    | JArr(items: seq<Json>)
    | JObj(fields: map<string, Json>)

  /** JavaScript truthiness: `null`, `false`, `0` and `""` are falsy. */
  predicate Truthy(j: Json) {
    match j
    case JNull => false
    case JBool(b) => b
    case JNum(n) => n != 0
    case JStr(s) => s != ""
    case _ => true
  }

  /** The engine services: `JSON.stringify`, `JSON.parse` (None when it
      throws) and the string a value becomes when used as a property key. */
  datatype Runtime = Runtime(
    stringify: Json -> string,
    parse: string -> Option<Json>,
    propertyKey: Json -> string)

  /** The first-character test `/^[\{\[]/`. */
  predicate StartsWithBracket(s: string) {
    |s| > 0 && (s[0] == '{' || s[0] == '[')
  }

  /** What a conforming engine guarantees: parsing undoes stringifying,
      exactly objects and arrays serialise to text opening with `{` or `[`,
      such text parses only to an object or an array, and a string used as a
      property key is itself. */
  ghost predicate Lawful(rt: Runtime) {
    && (forall j :: rt.parse(rt.stringify(j)) == Some(j))
    && (forall j :: StartsWithBracket(rt.stringify(j)) <==> (j.JObj? || j.JArr?))
    && (forall s :: StartsWithBracket(s) && rt.parse(s).Some? ==> rt.parse(s).value.JObj? || rt.parse(s).value.JArr?)
    && (forall s :: rt.propertyKey(JStr(s)) == s)
  }
}

=== FILE: message_source.dfy ===
/** The translation cache of `Jii.i18n.MessageSource`: a two-level store
    keyed by `language/category` and then by message, filled lazily by a
    loader, with a `missingTranslation` event that may supply a fallback, and
    negative caching of messages nothing could translate. */
module MessageSource {
  import opened Wrappers

  /** What the store holds for a message, and what a lookup returns: a
      translation, or `false`. */
  datatype Value = Text(s: string) | NotFound

  /** The messages of one language and category. */
  type Table = map<string, Value>

  /** `forceTranslation`, `sourceLanguage` and the store `_messages`. */
  datatype Source = Source(forceTranslation: bool, sourceLanguage: string, messages: map<string, Table>)

  /** The overridable and event-driven parts: `_loadMessages(category,
      language)`, whether a `missingTranslation` handler is attached, and the
      `translatedMessage` the handlers leave on the event (None for `null`). */
  datatype Hooks = Hooks(
    load: (string, string) -> Table,
    hasHandler: bool,
    fallback: (string, string, string) -> Option<string>)

  /** A call's return value, the store afterwards, and whether the
      `missingTranslation` event fired. */
  datatype Outcome = Outcome(result: Value, source: Source, missingEvent: bool)

  /** `${language}/${category}`. */
  function CacheKey(language: string, category: string): string {
    language + "/" + category
  }

  /** A stored value is a usable translation exactly when it is truthy: a
      non-empty string. An absent message is `undefined`, falsy too. */
  predicate Hit(t: Table, message: string) {
    message in t && t[message].Text? && t[message].s != ""
  }

  /** The base class's `_loadMessages`: it provides no translations. */
  function BaseLoad(category: string, language: string): (t: Table)
    ensures forall message :: !Hit(t, message)
  {
    map[]
  }

  /** The table a lookup works on: the stored one, or a freshly loaded one
      when the key is absent. */
  function TableFor(src: Source, hooks: Hooks, category: string, language: string): Table {
    var key := CacheKey(language, category);
    if key in src.messages then src.messages[key] else hooks.load(category, language)
  }

  /** `_translateMessage`. */
  function TranslateMessage(src: Source, hooks: Hooks, category: string, message: string, language: string): (o: Outcome)
    ensures CacheKey(language, category) in o.source.messages
    ensures o.source.forceTranslation == src.forceTranslation && o.source.sourceLanguage == src.sourceLanguage
    ensures forall k :: k != CacheKey(language, category) ==>
      (k in o.source.messages <==> k in src.messages) && (k in src.messages ==> o.source.messages[k] == src.messages[k])
    ensures message in o.source.messages[CacheKey(language, category)]
    ensures o.source.messages[CacheKey(language, category)][message] == o.result
    ensures forall m :: m != message ==>
      (m in o.source.messages[CacheKey(language, category)] <==> m in TableFor(src, hooks, category, language))
    ensures forall m :: m != message && m in TableFor(src, hooks, category, language) ==>
      o.source.messages[CacheKey(language, category)][m] == TableFor(src, hooks, category, language)[m]
    ensures o.missingEvent <==> hooks.hasHandler && !Hit(TableFor(src, hooks, category, language), message)
  {
    var key := CacheKey(language, category);
    var table := TableFor(src, hooks, category, language);
    if Hit(table, message) then
      Outcome(table[message], src.(messages := src.messages[key := table]), false)
    else if hooks.hasHandler && hooks.fallback(category, message, language).Some? then
      var v := Text(hooks.fallback(category, message, language).value);
      Outcome(v, src.(messages := src.messages[key := table[message := v]]), true)
    else
      Outcome(NotFound, src.(messages := src.messages[key := table[message := NotFound]]), hooks.hasHandler)
  }

  /** `translate`: nothing is looked up when the target language is the
      source language and translation is not forced. */
  function Translate(src: Source, hooks: Hooks, category: string, message: string, language: string): (o: Outcome)
    ensures !src.forceTranslation && language == src.sourceLanguage ==>
      o.result == NotFound && o.source == src && !o.missingEvent
    ensures src.forceTranslation || language != src.sourceLanguage ==>
      o == TranslateMessage(src, hooks, category, message, language)
  {
    if src.forceTranslation || language != src.sourceLanguage then
      TranslateMessage(src, hooks, category, message, language)
    else Outcome(NotFound, src, false)
  }

  /** `setMessages`: the whole store is replaced. */
  function SetMessages(src: Source, value: map<string, Table>): (r: Source)
    ensures r.messages == value
    ensures r.forceTranslation == src.forceTranslation && r.sourceLanguage == src.sourceLanguage
  {
    src.(messages := value)
  }

  // ---------------------------------------------------------------------
  // Properties

  /** The loader is consulted only for an absent key: with the key present
      any loader gives the same outcome. */
  lemma LoaderOnlyWhenAbsent(src: Source, hooks: Hooks, other: (string, string) -> Table, category: string, message: string, language: string)
    requires CacheKey(language, category) in src.messages
    ensures TranslateMessage(src, hooks, category, message, language)
         == TranslateMessage(src, hooks.(load := other), category, message, language)
  {
  }

  /** A stored truthy translation is returned as it is, the store stays as
      it was, and no event fires. */
  lemma HitLeavesStore(src: Source, hooks: Hooks, category: string, message: string, language: string)
    requires CacheKey(language, category) in src.messages
    requires Hit(src.messages[CacheKey(language, category)], message)
    ensures var o := TranslateMessage(src, hooks, category, message, language);
      o.result == src.messages[CacheKey(language, category)][message] && o.source == src && !o.missingEvent
  {
    var key := CacheKey(language, category);
    assert src.messages[key := src.messages[key]] == src.messages;
  }

  /** On a miss with a handler that supplies a translation, that text is
      returned and stored, even an empty one. */
  lemma FallbackStored(src: Source, hooks: Hooks, category: string, message: string, language: string, text: string)
    requires !Hit(TableFor(src, hooks, category, language), message)
    requires hooks.hasHandler && hooks.fallback(category, message, language) == Some(text)
    ensures var o := TranslateMessage(src, hooks, category, message, language);
      && o.result == Text(text) && o.missingEvent
      && o.source.messages[CacheKey(language, category)][message] == Text(text)
  {
  }

  /** On a miss with no handler, or with handlers that leave no translation,
      `false` is stored and returned; the event fires exactly when a handler
      is attached. */
  lemma NegativeCaching(src: Source, hooks: Hooks, category: string, message: string, language: string)
    requires !Hit(TableFor(src, hooks, category, language), message)
    requires !hooks.hasHandler || hooks.fallback(category, message, language).None?
    ensures var o := TranslateMessage(src, hooks, category, message, language);
      && o.result == NotFound && o.missingEvent == hooks.hasHandler
      && o.source.messages[CacheKey(language, category)][message] == NotFound
  {
  }

  /** A stored `false` or `""` does not end the search: the next lookup of
      that message misses again and asks the handlers once more. */
  lemma StoredFalsyStillMisses(src: Source, hooks: Hooks, category: string, message: string, language: string)
    requires CacheKey(language, category) in src.messages
    requires message in src.messages[CacheKey(language, category)]
    requires src.messages[CacheKey(language, category)][message] in {NotFound, Text("")}
    ensures TranslateMessage(src, hooks, category, message, language).missingEvent == hooks.hasHandler
  {
  }

  /** Asking twice in a row: the second call returns what the first did and
      leaves the store as the first left it. */
  lemma {:induction false} RepeatIsStable(src: Source, hooks: Hooks, category: string, message: string, language: string)
    ensures var first := TranslateMessage(src, hooks, category, message, language);
      var second := TranslateMessage(first.source, hooks, category, message, language);
      second.result == first.result && second.source == first.source
  {
    var key := CacheKey(language, category);
    var first := TranslateMessage(src, hooks, category, message, language);
    var table := first.source.messages[key];
    assert TableFor(first.source, hooks, category, language) == table;
    var second := TranslateMessage(first.source, hooks, category, message, language);
    if Hit(table, message) {
      assert first.source.messages[key := table] == first.source.messages;
    } else {
      assert table[message := second.result] == table;
      assert first.source.messages[key := table] == first.source.messages;
    }
  }

  /** Tables given to `setMessages` are used as they are: no loading, and a
      truthy entry is the answer. */
  lemma PresetTableUsed(src: Source, hooks: Hooks, value: map<string, Table>, category: string, message: string, language: string)
    requires CacheKey(language, category) in value && Hit(value[CacheKey(language, category)], message)
    ensures var o := TranslateMessage(SetMessages(src, value), hooks, category, message, language);
      o.result == value[CacheKey(language, category)][message] && o.source.messages == value
  {
    HitLeavesStore(SetMessages(src, value), hooks, category, message, language);
  }

  /** With the base loader and no handler, the first lookup under a new key
      stores a table holding only `false` for the message. */
  lemma BaseLoaderMisses(src: Source, hooks: Hooks, category: string, message: string, language: string)
    requires hooks.load == BaseLoad && !hooks.hasHandler
    requires CacheKey(language, category) !in src.messages
    ensures var o := TranslateMessage(src, hooks, category, message, language);
      o.result == NotFound && o.source.messages == src.messages[CacheKey(language, category) := map[message := NotFound]]
  {
  }
}

=== FILE: strings.dfy ===
/** Sequence and string helpers with the meaning of the JavaScript built-ins
    the modelled code calls: `indexOf`, `lastIndexOf`, `split`, `join`. */
module Strings {

  /** `s.indexOf(prefix) === 0`. */
  predicate StartsWith<T(==)>(s: seq<T>, prefix: seq<T>) {
    |prefix| <= |s| && s[..|prefix|] == prefix
  }

  /** `s` holds `t` as a contiguous run: `s.indexOf(t) !== -1`. */
  predicate Contains<T(==)>(s: seq<T>, t: seq<T>)
    decreases |s|
  {
    StartsWith(s, t) || (|s| > 0 && Contains(s[1..], t))
  }

  /** The two-element run `a, b` occurs somewhere in `s`. */
  ghost predicate HasPair<T>(s: seq<T>, a: T, b: T) {
    exists i :: 0 <= i < |s| - 1 && s[i] == a && s[i + 1] == b
  }

  /** Searching for a two-character needle is looking for an adjacent pair. */
  lemma {:induction false} ContainsPair<T>(s: seq<T>, a: T, b: T)
    ensures Contains(s, [a, b]) <==> HasPair(s, a, b)
    decreases |s|
  {
    if |s| < 2 {
      if |s| == 1 {
        assert s[1..] == [];
      }
    } else {
      ContainsPair(s[1..], a, b);
      if HasPair(s[1..], a, b) {
        var i :| 0 <= i < |s[1..]| - 1 && s[1..][i] == a && s[1..][i + 1] == b;
        assert s[i + 1] == a && s[i + 2] == b;
      }
      if HasPair(s, a, b) && !StartsWith(s, [a, b]) {
        var i :| 0 <= i < |s| - 1 && s[i] == a && s[i + 1] == b;
        if i == 0 {
          assert s[..2] == [a, b];
        } else {
          assert s[1..][i - 1] == a && s[1..][i] == b;
        }
      }
      if StartsWith(s, [a, b]) {
        assert s[..2][0] == a && s[..2][1] == b;
      }
    }
  }

  /** `_indexOf(s, x)`: the first position of `x`, or `|s|` when absent (the
      source's `-1`). */
  function IndexOf<T(==)>(s: seq<T>, x: T): (i: nat)
    ensures i <= |s|
    ensures i < |s| ==> s[i] == x
    ensures forall j :: 0 <= j < i ==> s[j] != x
    ensures i == |s| <==> x !in s
  {
    if |s| == 0 then 0
    else if s[0] == x then 0
    else 1 + IndexOf(s[1..], x)
  }

  /** What the tail holds, the sequence holds. */
  lemma InTail<T>(s: seq<T>, x: T)
    requires |s| > 0 && x in s[1..]
    ensures x in s
  {
    var k :| 0 <= k < |s[1..]| && s[1..][k] == x;
    assert s[k + 1] == x;
  }

  /** A sequence is what comes before position `i`, the element there, and
      what follows. */
  lemma CutAt<T>(s: seq<T>, i: nat)
    requires i < |s|
    ensures s == s[..i] + [s[i]] + s[i + 1..]
  {
  }

  /** What a suffix lacks, the positions it covers lack. */
  lemma NotInSuffix<T>(s: seq<T>, i: nat, x: T)
    requires i <= |s| && x !in s[i..]
    ensures forall q :: i <= q < |s| ==> s[q] != x
  {
    forall q | i <= q < |s|
      ensures s[q] != x
    {
      assert s[i..][q - i] == s[q];
    }
  }

  /** `s.lastIndexOf(x)`: the last position of `x`, or `-1` when absent. */
  function LastIndexOf<T(==)>(s: seq<T>, x: T): (i: int)
    ensures -1 <= i < |s|
    ensures 0 <= i ==> s[i] == x
    ensures forall j :: i < j < |s| ==> s[j] != x
    ensures i == -1 <==> x !in s
  {
    if |s| == 0 then -1
    else if s[|s| - 1] == x then |s| - 1
    else LastIndexOf(s[..|s| - 1], x)
  }

  /** The last occurrence is the position holding `x` with no `x` after
      it (or -1 when no `x` follows the start). */
  lemma LastIndexOfUnique<T>(s: seq<T>, x: T, q: int)
    requires -1 <= q < |s| && (q >= 0 ==> s[q] == x) && x !in s[q + 1..]
    ensures LastIndexOf(s, x) == q
  {
    NotInSuffix(s, q + 1, x);
  }

  /** Nothing after the last occurrence of `x` is `x`. */
  lemma AbsentAfterLast<T>(s: seq<T>, x: T)
    ensures x !in s[LastIndexOf(s, x) + 1..]
  {
    var n := LastIndexOf(s, x);
    var after := s[n + 1..];
    forall q | 0 <= q < |after|
      ensures after[q] != x
    {
      assert after[q] == s[n + 1 + q];
    }
  }

  ghost predicate NoDuplicates<T>(s: seq<T>) {
    forall i, j :: 0 <= i < j < |s| ==> s[i] != s[j]
  }

  /** Every element of `s` except the occurrences of `x`, in order. */
  function Without<T(==)>(s: seq<T>, x: T): (r: seq<T>)
    ensures x !in r
    ensures forall k :: 0 <= k < |r| ==> r[k] in s
    ensures forall k :: 0 <= k < |s| && s[k] != x ==> s[k] in r
  {
    if |s| == 0 then []
    else (if s[0] == x then [] else [s[0]]) + Without(s[1..], x)
  }

  /** Filtering out `x` keeps every other value exactly when it was there. */
  lemma WithoutKeepsOthers<T>(s: seq<T>, x: T, y: T)
    requires y != x
    ensures y in Without(s, x) <==> y in s
  {
    if y in s {
      var k :| 0 <= k < |s| && s[k] == y;
    }
  }

  /** Cutting out the one occurrence of `x` from a duplicate-free sequence is
      the order-preserving filter `Without`. */
  lemma {:induction false} RemoveAtIsWithout<T>(s: seq<T>, i: nat)
    requires NoDuplicates(s)
    requires i < |s|
    ensures s[..i] + s[i + 1..] == Without(s, s[i])
    decreases |s|
  {
    NoDuplicatesTail(s);
    if i == 0 {
      RemoveHeadIsWithout(s);
    } else {
      RemoveAtIsWithout(s[1..], i - 1);
      RemoveLaterIsWithout(s, i);
    }
  }

  /** `RemoveAtIsWithout` at the head. */
  lemma RemoveHeadIsWithout<T>(s: seq<T>)
    requires |s| > 0 && s[0] !in s[1..]
    ensures s[..0] + s[1..] == Without(s, s[0])
  {
    WithoutAbsent(s[1..], s[0]);
    assert s[..0] + s[1..] == s[1..];
  }

  /** `RemoveAtIsWithout` after the head, from the same for the tail. */
  lemma RemoveLaterIsWithout<T>(s: seq<T>, i: nat)
    requires 0 < i < |s| && s[0] != s[i]
    requires s[1..][..i - 1] + s[1..][i..] == Without(s[1..], s[1..][i - 1])
    ensures s[..i] + s[i + 1..] == Without(s, s[i])
  {
    assert s[1..][i - 1] == s[i];
    RemoveAtCons(s, i);
  }

  /** The tail of a duplicate-free sequence is duplicate-free and lacks the
      head. */
  lemma NoDuplicatesTail<T>(s: seq<T>)
    requires NoDuplicates(s) && |s| > 0
    ensures NoDuplicates(s[1..]) && s[0] !in s[1..]
    ensures forall k :: 1 <= k < |s| ==> s[k] != s[0]
  {
    var t := s[1..];
    forall k | 0 <= k < |t|
      ensures t[k] != s[0]
    {
      assert t[k] == s[k + 1];
    }
    forall a, b | 0 <= a < b < |t|
      ensures t[a] != t[b]
    {
      assert t[a] == s[a + 1] && t[b] == s[b + 1];
    }
  }

  /** Cutting out a position after the head keeps the head in front. */
  lemma RemoveAtCons<T>(s: seq<T>, i: nat)
    requires 0 < i < |s|
    ensures s[..i] + s[i + 1..] == [s[0]] + (s[1..][..i - 1] + s[1..][i..])
  {
  }

  /** Cutting out one element removes exactly one occurrence of it. */
  lemma RemoveAtMultiset<T>(s: seq<T>, i: nat)
    requires i < |s|
    ensures multiset(s[..i] + s[i + 1..]) == multiset(s) - multiset{s[i]}
  {
    assert s == s[..i] + [s[i]] + s[i + 1..];
  }

  /** Cutting out one element keeps a sequence free of duplicates. */
  lemma RemoveAtNoDuplicates<T>(s: seq<T>, i: nat)
    requires NoDuplicates(s) && i < |s|
    ensures NoDuplicates(s[..i] + s[i + 1..])
  {
    var r := s[..i] + s[i + 1..];
    forall a, b | 0 <= a < b < |r|
      ensures r[a] != r[b]
    {
      var a' := if a < i then a else a + 1;
      var b' := if b < i then b else b + 1;
      assert r[a] == s[a'] && r[b] == s[b'];
    }
  }

  /** `s.splice(i, 1)`: the element at `i` cut out. Exactly that one
      occurrence goes; on a duplicate-free sequence this is the
      order-preserving filter. */
  function RemoveAt<T(==)>(s: seq<T>, i: nat): (r: seq<T>)
    requires i < |s|
    ensures |r| == |s| - 1
    ensures multiset(r) == multiset(s) - multiset{s[i]}
    ensures NoDuplicates(s) ==> r == Without(s, s[i]) && NoDuplicates(r)
  {
    RemoveAtMultiset(s, i);
    assert NoDuplicates(s) ==> s[..i] + s[i + 1..] == Without(s, s[i]) && NoDuplicates(s[..i] + s[i + 1..]) by {
      if NoDuplicates(s) {
        RemoveAtIsWithout(s, i);
        RemoveAtNoDuplicates(s, i);
      }
    }
    s[..i] + s[i + 1..]
  }

  /** Moving the head of `b` onto the end of `a` keeps `a + b`, and in a
      duplicate-free concatenation that head is not already in `a`. */
  lemma NoDuplicatesShift<T>(a: seq<T>, b: seq<T>)
    requires NoDuplicates(a + b) && |b| > 0
    ensures b[0] !in a
    ensures (a + [b[0]]) + b[1..] == a + b
  {
    var all := a + b;
    assert all[|a|] == b[0];
    forall k | 0 <= k < |a|
      ensures a[k] != b[0]
    {
      assert all[k] == a[k];
    }
    assert b == [b[0]] + b[1..];
  }

  /** Filtering out an element that is absent changes nothing. */
  lemma {:induction false} WithoutAbsent<T>(s: seq<T>, x: T)
    requires x !in s
    ensures Without(s, x) == s
    decreases |s|
  {
    if |s| > 0 {
      assert s[0] != x;
      assert x !in s[1..] by {
        forall k | 0 <= k < |s[1..]|
          ensures s[1..][k] != x
        {
          assert s[1..][k] == s[k + 1];
        }
      }
      WithoutAbsent(s[1..], x);
      assert Without(s, x) == [s[0]] + Without(s[1..], x);
      assert [s[0]] + s[1..] == s;
    }
  }

  /** `parts.join([d])`. */
  function Join(parts: seq<string>, d: char): string
    decreases |parts|
  {
    if |parts| == 0 then ""
    else if |parts| == 1 then parts[0]
    else parts[0] + [d] + Join(parts[1..], d)
  }

  /** `s.split([d])`: the maximal separator-free pieces of `s`, always at least one. */
  function Split(s: string, d: char): (parts: seq<string>)
    ensures |parts| >= 1
    ensures forall k :: 0 <= k < |parts| ==> d !in parts[k]
    decreases |s|
  {
    var i := IndexOf(s, d);
    if i == |s| then [s]
    else
      var rest := Split(s[i + 1..], d);
      assert d !in s[..i] by {
        forall j | 0 <= j < i
          ensures s[..i][j] != d
        {
        }
      }
      [s[..i]] + rest
  }

  /** Joining the pieces of a split gives the string back. */
  lemma {:induction false} JoinSplit(s: string, d: char)
    ensures Join(Split(s, d), d) == s
    decreases |s|
  {
    var i := IndexOf(s, d);
    if i < |s| {
      var t := s[i + 1..];
      SplitAtFirst(s, d);
      JoinSplit(t, d);
      JoinCons(s[..i], Split(t, d), d);
      CutAt(s, i);
      assert Join(Split(s, d), d) == s[..i] + [d] + t;
    } else {
      assert Split(s, d) == [s];
    }
  }

  /** Joining a piece put in front of a non-empty list. */
  lemma JoinCons(w: string, rest: seq<string>, d: char)
    requires |rest| >= 1
    ensures Join([w] + rest, d) == w + [d] + Join(rest, d)
  {
    assert ([w] + rest)[1..] == rest;
  }

  /** The first separator after a separator-free prefix is the one that
      closes it. */
  lemma {:induction false} IndexOfAfterPrefix(w: string, d: char, rest: string)
    requires d !in w
    ensures IndexOf(w + [d] + rest, d) == |w|
    decreases |w|
  {
    if |w| > 0 {
      assert (w + [d] + rest)[1..] == w[1..] + [d] + rest;
      IndexOfAfterPrefix(w[1..], d, rest);
    }
  }

  /** Splitting peels off the separator-free piece in front. */
  lemma SplitCons(w: string, d: char, rest: string)
    requires d !in w
    ensures Split(w + [d] + rest, d) == [w] + Split(rest, d)
  {
    var s := w + [d] + rest;
    IndexOfAfterPrefix(w, d, rest);
    assert s[..|w|] == w;
    assert s[|w| + 1..] == rest;
  }

  /** Splitting cuts at the first separator. */
  lemma SplitAtFirst(s: string, d: char)
    requires IndexOf(s, d) < |s|
    ensures Split(s, d) == [s[..IndexOf(s, d)]] + Split(s[IndexOf(s, d) + 1..], d)
  {
  }

  /** Behind a separator at `i`, prefixing the separator to the rest is
      the suffix of the prefixed whole. */
  lemma SeparatorSuffix(s: string, d: char, i: nat)
    requires i < |s| && s[i] == d
    ensures ([d] + s)[i + 1..] == [d] + s[i + 1..]
  {
  }

  /** A pair inside a suffix is a pair of the whole. */
  lemma PairInSuffix<T>(u: seq<T>, j: nat, a: T, b: T)
    requires j <= |u| && HasPair(u[j..], a, b)
    ensures HasPair(u, a, b)
  {
    var m :| 0 <= m < |u[j..]| - 1 && u[j..][m] == a && u[j..][m + 1] == b;
    assert u[j + m] == a && u[j + m + 1] == b;
  }

  /** A pair at or after `j` is a pair of the suffix from `j`. */
  lemma PairToSuffix<T>(u: seq<T>, j: nat, p: nat, a: T, b: T)
    requires j <= p < |u| - 1 && u[p] == a && u[p + 1] == b
    ensures HasPair(u[j..], a, b)
  {
    assert u[j..][p - j] == a && u[j..][p - j + 1] == b;
  }

  /** Splitting a joined list of separator-free pieces gives the pieces back. */
  lemma {:induction false} SplitJoin(parts: seq<string>, d: char)
    requires |parts| >= 1
    requires forall k :: 0 <= k < |parts| ==> d !in parts[k]
    ensures Split(Join(parts, d), d) == parts
    decreases |parts|
  {
    if |parts| == 1 {
      assert IndexOf(parts[0], d) == |parts[0]|;
    } else {
      SplitJoin(parts[1..], d);
      SplitCons(parts[0], d, Join(parts[1..], d));
      assert parts == [parts[0]] + parts[1..];
    }
  }

  /** `s` is non-empty and its last element is `c`. */
  predicate EndsWithElem<T(==)>(s: seq<T>, c: T) {
    |s| > 0 && s[|s| - 1] == c
  }

  /** Every piece after the first is non-empty. */
  ghost predicate TailNonEmpty(parts: seq<string>) {
    forall k :: 1 <= k < |parts| ==> parts[k] != ""
  }

  /** Every piece of `Split(s, d)` after the first is non-empty exactly when
      `s` neither holds two adjacent separators nor ends with one. */
  lemma {:induction false} SplitTailNonEmpty(s: string, d: char)
    ensures TailNonEmpty(Split(s, d)) <==> !HasPair(s, d, d) && !EndsWithElem(s, d)
    decreases |s|
  {
    var i := IndexOf(s, d);
    if i == |s| {
      assert Split(s, d) == [s];
    } else {
      SplitTailNonEmpty(s[i + 1..], d);
      SplitTailStep(s, d, i);
    }
  }

  /** The inductive step of `SplitTailNonEmpty`: cutting at the first
      separator carries the property over from the remainder. */
  lemma SplitTailStep(s: string, d: char, i: nat)
    requires i == IndexOf(s, d) < |s|
    requires TailNonEmpty(Split(s[i + 1..], d)) <==> !HasPair(s[i + 1..], d, d) && !EndsWithElem(s[i + 1..], d)
    ensures TailNonEmpty(Split(s, d)) <==> !HasPair(s, d, d) && !EndsWithElem(s, d)
  {
    var t := s[i + 1..];
    var parts := Split(s, d);
    var rest := Split(t, d);
    assert parts == [s[..i]] + rest;
    TailShiftCons(s[..i], rest);
    FirstPieceEmpty(t, d);
    SeparatorPairsAfter(s, d, i);
  }

  /** `TailShift` for a piece put in front. */
  lemma TailShiftCons(w: string, rest: seq<string>)
    requires |rest| >= 1
    ensures TailNonEmpty([w] + rest) <==> rest[0] != "" && TailNonEmpty(rest)
  {
    TailShift([w] + rest, rest);
  }

  /** When `parts` is `rest` with one piece in front, the pieces of `parts`
      after the first are all non-empty exactly when all of `rest` are. */
  lemma TailShift(parts: seq<string>, rest: seq<string>)
    requires |rest| >= 1 && |parts| == |rest| + 1
    requires forall k :: 1 <= k < |parts| ==> parts[k] == rest[k - 1]
    ensures TailNonEmpty(parts) <==> rest[0] != "" && TailNonEmpty(rest)
  {
    if TailNonEmpty(parts) {
      assert parts[1] == rest[0];
      forall k | 1 <= k < |rest|
        ensures rest[k] != ""
      {
        assert parts[k + 1] == rest[k];
      }
    }
  }

  /** The first piece of `Split(t, d)` is empty exactly when `t` is empty or
      begins with a separator. */
  lemma FirstPieceEmpty(t: string, d: char)
    ensures Split(t, d)[0] == "" <==> (|t| == 0 || t[0] == d)
  {
    var m := IndexOf(t, d);
    if m < |t| {
      assert Split(t, d)[0] == t[..m];
    }
  }

  /** Cutting `s` at its first separator `i`: `s` is free of doubled and
      trailing separators exactly when the remainder is, and the remainder
      neither is empty nor begins with a separator. */
  lemma SeparatorPairsAfter(s: string, d: char, i: nat)
    requires i < |s| && s[i] == d
    requires forall j :: 0 <= j < i ==> s[j] != d
    ensures (!HasPair(s, d, d) && !EndsWithElem(s, d))
        <==> (|s[i + 1..]| > 0 && s[i + 1] != d && !HasPair(s[i + 1..], d, d) && !EndsWithElem(s[i + 1..], d))
  {
    var t := s[i + 1..];
    if HasPair(s, d, d) && |t| > 0 && s[i + 1] != d {
      var j :| 0 <= j < |s| - 1 && s[j] == d && s[j + 1] == d;
      assert t[j - i - 1] == d && t[j - i] == d;
    }
    if HasPair(t, d, d) {
      var j :| 0 <= j < |t| - 1 && t[j] == d && t[j + 1] == d;
      assert s[i + 1 + j] == d && s[i + 2 + j] == d;
    }
    if |t| > 0 {
      assert s[|s| - 1] == t[|t| - 1];
    }
  }
}

=== FILE: wire.dfy ===
/** The single-line text protocol the comet client speaks:
      subscribe <channel>
      unsubscribe <channel>
      channel <channel> <payload>
      action <route> <json>          (outbound)
      action <json>                  (inbound response) */
module Wire {
  import opened Strings

  const SubscribeCommand := "subscribe "
  const UnsubscribeCommand := "unsubscribe "
  const ChannelCommand := "channel "
  const ActionCommand := "action "

  function SubscribeFrame(channel: string): string {
    SubscribeCommand + channel
  }

  function UnsubscribeFrame(channel: string): string {
    UnsubscribeCommand + channel
  }

  function ChannelFrame(channel: string, payload: string): string {
    ChannelCommand + channel + " " + payload
  }

  function ActionFrame(route: string, json: string): string {
    ActionCommand + route + " " + json
  }

  /** The two halves of the text after `channel `. */
  datatype ChannelBody = ChannelBody(channel: string, rest: string)

  /** The cut `_onMessage` makes: the channel is the text before the first
      space and the payload everything after it. With no space at all,
      `substr(0, -1)` gives an empty channel and `substr(0)` the whole text. */
  function SplitChannelBody(body: string): (b: ChannelBody)
    ensures ' ' !in b.channel
    ensures ' ' in body ==> body == b.channel + " " + b.rest
    ensures ' ' !in body ==> b.channel == "" && b.rest == body
  {
    var i := IndexOf(body, ' ');
    if i == |body| then ChannelBody("", body)
    else
      assert ' ' !in body[..i] by {
        forall j | 0 <= j < i
          ensures body[..i][j] != ' '
        {
        }
      }
      assert body == body[..i] + " " + body[i + 1..];
      ChannelBody(body[..i], body[i + 1..])
  }

  /** The channel frame round trip: the frame `send` builds starts with
      `channel `, and the cut `_onMessage` makes in the rest gives back the
      channel and the payload exactly when the channel name has no space. */
  lemma {:induction false} ChannelFrameRoundTrip(channel: string, payload: string)
    ensures StartsWith(ChannelFrame(channel, payload), ChannelCommand)
    ensures ChannelFrame(channel, payload)[|ChannelCommand|..] == channel + " " + payload
    ensures SplitChannelBody(ChannelFrame(channel, payload)[|ChannelCommand|..]) == ChannelBody(channel, payload)
        <==> ' ' !in channel
  {
    var frame := ChannelFrame(channel, payload);
    var body := channel + " " + payload;
    assert frame == ChannelCommand + body;
    assert frame[|ChannelCommand|..] == body;
    if ' ' !in channel {
      assert body[|channel|] == ' ';
      assert forall j :: 0 <= j < |channel| ==> body[j] == channel[j];
      assert IndexOf(body, ' ') == |channel|;
      assert body[..|channel|] == channel;
      assert body[|channel| + 1..] == payload;
    }
  }

  /** No frame is both an action and a channel frame. */
  lemma PrefixesExclusive(frame: string)
    ensures !(StartsWith(frame, ActionCommand) && StartsWith(frame, ChannelCommand))
  {
    if StartsWith(frame, ActionCommand) {
      assert frame[0] == 'a';
    }
  }

  /** Frames of the different commands are never confused. */
  lemma CommandsDistinct(channel: string, payload: string, route: string, json: string)
    ensures !StartsWith(ChannelFrame(channel, payload), ActionCommand)
    ensures !StartsWith(ActionFrame(route, json), ChannelCommand)
  {
    assert ChannelFrame(channel, payload)[0] == 'c';
    assert ActionFrame(route, json)[0] == 'a';
  }
}

=== FILE: wrappers.dfy ===
/** Failure-compatible wrappers used across the model: `Option` stands for a
    JavaScript value that may be `null`, `Result` for a call that may throw. */
module Wrappers {

  datatype Option<+T> = None | Some(value: T)

  datatype Result<+T, +E> = Success(value: T) | Failure(error: E) {

    predicate IsFailure() {
      Failure?
    }

    function PropagateFailure<U>(): Result<U, E>
      requires Failure?
    {
      Failure(error)
    }

    function Extract(): T
      requires Success?
    {
      value
    }
  }
}
